=== FILE: README.md ===
# labelprinterkit printer protocol, modelled in Dafny

This project models the printer-protocol core of labelprinterkit, a Python
library that prints labels on Brother P-touch raster printers. It covers:

- **Line encoder** (`encode_line`). A raster line is read as a big-endian
  number and shifted left by the tape's left margin. It is written back as 16
  bytes, packed with PackBits, and prefixed with its little-endian 16-bit
  length.
- **Protocol engine** (`GenericPrinter.print`, `reset`, `get_status`), in both
  revisions found in the library:
  - `Package` is `labelprinterkit/printers/__init__.py`.
  - `Legacy` is the older single module `labelprinterkit/printers.py`.
  - A run is a pure function from printer capabilities and job to the ordered
    list of backend writes, together with the failure that stopped the run, if
    any. Writes issued before a failure stay issued, as they do on the wire.
- **Status reply decoder** (`Status`, `ready`) and the error bitmask (`Error`,
  `any`).
- **Jobs and pages**: `Job` with `add_page`, `__iter__` and `__len__`; `Page`
  with its size invariant and its split into raster lines.
- **Fixed tables**: resolutions, mode bits, error bits, tape geometry, the code
  tables of the status reply, and the printer models with their capabilities
  and case-insensitive lookup by name.

Modules, one file each:

- `Results`: Option and Result.
- `ByteValues` and `Bytes`: big- and little-endian integers.
- `PackBits`.
- `Constants`, `CodeTables`, `ErrorFlags` and `StatusPacket`.
- `Pages`, `Jobs` and `PrinterModels`.
- `LineEncoder`, `RasterLines` and `WriteCounts`.
- `Protocol`: the engine.
- `ProtocolProperties`: the properties of whole runs.

Notes on the code's behaviour:

- **Margin shift.** The code treats a raster line as one big-endian number
  and shifts it towards the most significant end. A line `FF` shifted by an
  8-dot margin therefore lands in byte 14 of the 16-byte line, followed by
  `00` (`LineEncoder.MarginShiftExample`).
- **Backend dispatch.** The code probes the backend with
  `hasattr`/`isinstance`. The model makes the backend one of three
  capabilities: `WriteOnly`, `ReadWrite` and `SideChannel`.
- **Page dimensions.** `Page` checks only `ceil(width / 8) * length ==
  len(bitmap)`, so some negative widths and lengths pass
  (`Pages.NegativeDimensions`). Such a page never enters a job: `add_page`
  refuses it on its width (`Jobs.NonPositiveWidthRefused`).
- **Short replies.** Decoding a status reply needs only bytes 0–25.
  `get_status` refuses anything shorter than 32 bytes before it decodes.
- **Unknown codes.** An unknown code byte raises `KeyError` in the code; the
  `except IndexError` clauses around the lookups never catch it. Either way
  the decode fails, and the model reports which field was unknown.
- **Job media in the package revision.** As the text stands, the package
  revision cannot run a job. Both package modules import `Media` from the
  constants module, which defines no such name; and `print` reads `job.media`
  (labelprinterkit/printers/__init__.py, line 84), which `Job` does not
  define. So every job would fail right after the reset.
  - The model repairs that lookup: it gives both revisions the job's media
    size and media type.
  - `Protocol.RejectedMedia` is the model's reading of the intended
    `(Media.NO_MEDIA, Media.UNSUPPORTED_MEDIA)` check. The package revision
    refuses the no-media size, the no-media type and the incompatible-tape
    type.
  - Everything said below of the package revision "as written" holds once
    that media lookup is repaired as in the model.

## Model

| member | source | states |
|---|---|---|
| Bytes.FromBigEndian | labelprinterkit/printers/__init__.py:36 | the big-endian value of n bytes is below 2^(8n) |
| Bytes.ToBigEndian | labelprinterkit/printers/__init__.py:38 | the k-byte big-endian form of a number below 2^(8k) has k bytes and reads back as that number |
| Bytes.ToBigEndianOfFromBigEndian | labelprinterkit/printers/__init__.py:36-38 | reading bytes as a number and writing that number back in as many bytes gives the same bytes |
| Bytes.BigEndianInjective | labelprinterkit/printers/__init__.py:36-38 | two byte strings of equal length and equal value are equal |
| Bytes.FromBigEndianLeadingZeros | labelprinterkit/printers/__init__.py:38 | zero bytes in front do not change a big-endian value |
| Bytes.LittleEndian16 | labelprinterkit/printers/__init__.py:46 | `struct.pack("<H", n)` is two bytes, low byte first, whose value is n |
| PackBits.Encode | labelprinterkit/printers/__init__.py:41 | the packed form is at most twice as long as its input |
| PackBits.RoundTrip | labelprinterkit/printers/__init__.py:41 | unpacking the packed bytes gives back exactly the original bytes |
| PackBits.LiteralOnly | labelprinterkit/printers/__init__.py:41 | up to 128 bytes with no byte equal to its successor pack as the header n-1 followed by the bytes |
| PackBits.RepeatOnly | labelprinterkit/printers/__init__.py:41 | 2 to 128 equal bytes pack as the header 257-n and the byte |
| LineEncoder.ShiftIsMultiplication | labelprinterkit/printers/__init__.py:37 | shifting left by n dots multiplies the line's value by 2^n |
| LineEncoder.PaddedLine | labelprinterkit/printers/__init__.py:36-38 | the padded line exists exactly when the shifted value is below 2^128; it is 16 bytes whose big-endian value is the shifted value |
| LineEncoder.PaddedLineUnique | labelprinterkit/printers/__init__.py:38 | any 16-byte string whose value is the shifted line is the padded line |
| LineEncoder.EncodeLine | labelprinterkit/printers/__init__.py:30-48 | encoding succeeds exactly when padding does; the output is a little-endian length L and L more bytes (at most 34 in all), and those bytes unpack to the padded line |
| LineEncoder.UnshiftedLine | labelprinterkit/printers.py:114-116 | without a shift, a line of at most 16 bytes is right-aligned behind zero bytes |
| LineEncoder.MarginShiftExample | labelprinterkit/printers/__init__.py:36-38 | the line `FF` shifted by 8 dots becomes 14 zero bytes, then `FF 00` |
| LineEncoder.OverflowExample | labelprinterkit/printers/__init__.py:37-38 | a 16-byte line starting with `FF` cannot be shifted by one dot, so encoding fails |
| LineEncoder.FitsHead | labelprinterkit/printers/__init__.py:36-38 | a line of n bytes shifted by p dots always fits when 8n + p <= 128 |
| LineEncoder.TapeLinesFit | labelprinterkit/constants.py:43-48 | for every real tape, a full line of the print area plus the left margin stays within 128 dots |
| LineEncoder.TapeLineEncodes | labelprinterkit/printers/__init__.py:155-157 | every line no wider than the tape's print area encodes with that tape's left margin |
| Constants.ModeBitsDistinct | labelprinterkit/constants.py:10-20 | every various-mode and advanced-mode setting is a single bit, and no two settings share one |
| Constants.ErrorCodesDistinct | labelprinterkit/constants.py:23-30 | every error code is a single bit of a 16-bit word, no two share one, and together they are 0x314D |
| Constants.MediaFillsHead | labelprinterkit/constants.py:41-48 | only the no-media sentinel lacks a print area; for every other tape, left margin + print area + right margin = 128 |
| CodeTables.MediaType.FromByte | labelprinterkit/constants.py:51-57 | the reverse lookup finds only the member whose value is the byte |
| CodeTables.StatusCode.FromByte | labelprinterkit/constants.py:60-67 | the reverse lookup finds only the member whose value is the byte |
| CodeTables.NotificationCode.FromByte | labelprinterkit/constants.py:70-73 | the reverse lookup finds only the member whose value is the byte |
| CodeTables.TapeColor.FromByte | labelprinterkit/constants.py:76-107 | the reverse lookup finds only the member whose value is the byte |
| CodeTables.TextColor.FromByte | labelprinterkit/constants.py:110-121 | the reverse lookup finds only the member whose value is the byte |
| CodeTables.LookupComplete | labelprinterkit/constants.py:51-121 | every member of every code table is found again from its own value, so the values are pairwise distinct and each lookup inverts `value` |
| ErrorFlags.Word | labelprinterkit/printers/error.py:6 | `byte1 \| (byte2 << 8)` has byte1 as its low half and byte2 as its high half |
| ErrorFlags.FromWord | labelprinterkit/printers/error.py:7 | a named flag is set exactly when the word has that code's bit |
| ErrorFlags.AnyIffKnownBit | labelprinterkit/printers/error.py:9-10 | `any()` holds exactly when the word has a bit of some error code |
| ErrorFlags.UnknownBitsIgnored | labelprinterkit/printers/error.py:7 | bits that belong to no error code change no flag |
| ErrorFlags.FlagFromBytes | labelprinterkit/printers/error.py:6-7 | each flag is one bit of the first byte (codes below 0x100) or of the second byte |
| ErrorFlags.AnyFromBytes | labelprinterkit/printers/error.py:6-10 | some error is reported exactly when byte1 has a bit of 0x4D or byte2 a bit of 0x31 |
| ErrorFlags.NoMediaExample | labelprinterkit/printers/error.py:6-7 | bytes `01 00` report exactly the missing-media error |
| StatusPacket.Decode | labelprinterkit/printers/status.py:12-47 | decoding succeeds exactly when the reply reaches byte 25 and bytes 11, 18, 22, 24 and 25 hold known codes; model is byte 4, errors come from bytes 8 and 9, width is byte 10, and each code field is the member whose value is its byte |
| StatusPacket.DependsOnlyOnFields | labelprinterkit/printers/status.py:8-49 | two replies that agree on bytes 4, 8, 9, 10, 11, 18, 22, 24 and 25 decode alike |
| StatusPacket.UnknownMediaTypeFails | labelprinterkit/printers/status.py:18-21 | an unknown media-type byte makes decoding fail with that byte |
| StatusPacket.ReadyFromBytes | labelprinterkit/printers/status.py:60-61 | `ready()` holds exactly when byte 8 has no bit of 0x4D and byte 9 no bit of 0x31 |
| StatusPacket.NoMediaReplyNotReady | labelprinterkit/printers/status.py:60-61 | a reply with error bytes `01 00` reports only missing media and is not ready |
| Pages.BytesPerLine | labelprinterkit/page.py:40-44 | bytes per line is the least n with 8n >= width, i.e. `ceil(width / 8)`, for negative widths too |
| Pages.NewPage | labelprinterkit/page.py:60-66 | the constructor succeeds exactly when `ceil(width/8) * length` is the bitmap's size, for any integer width and length, and then keeps every argument |
| Pages.NegativeDimensions | labelprinterkit/page.py:19-48 | the size check admits `Page(b"\x01\x02", -9, -2)`, which yields no lines, and `Page(b"", -3, 7)`, which cannot be iterated |
| Pages.FlattenChunks | labelprinterkit/page.py:46-48 | gluing the slices back together gives the bitmap |
| Pages.ChunksOfMultiple | labelprinterkit/page.py:46-48 | a bitmap of exactly n slices of k bytes gives n slices, slice i being the k bytes from i*k on |
| Pages.Lines | labelprinterkit/page.py:46-48 | iterating a page fails exactly when bytes per line is 0, as `range` does with step 0; a negative step yields no lines; with a positive step the lines glue back to the bitmap; no line is longer than a line's bytes |
| Pages.StepSign | labelprinterkit/page.py:40-44 | bytes per line is 0 exactly for widths -7 to 0, negative below -7 and positive for positive widths |
| Pages.WellSizedLines | labelprinterkit/page.py:46-48 | a page that passed the size check and has a positive width yields exactly `length` lines, line i being the i-th run of `ceil(width/8)` bytes |
| Jobs.NewJob | labelprinterkit/job.py:8-36 | a new job holds no pages and keeps every argument it was given: media size and type, auto-cut, mirror printing, half-cut, chain, special tape, `cut_each` and resolution |
| Jobs.AddPage | labelprinterkit/job.py:44-56 | a page is accepted exactly when the job admits it, and is then appended; each refusal names the first check that fails, in `add_page`'s order |
| Jobs.AddPagePreservesValid | labelprinterkit/job.py:44-56 | an accepted page goes at the end: the job grows by one, earlier pages are unchanged, and every page stays admissible |
| Jobs.MinLengthBoundary | labelprinterkit/job.py:50-55 | a page of the right width and resolution is accepted exactly when it has at least 31 lines (low) or 62 lines (high); one line fewer is refused as too short |
| Jobs.NoMediaAcceptsNothing | labelprinterkit/job.py:45-47 | a job without a media size, or for the no-media sentinel, accepts no page |
| Jobs.NonPositiveWidthRefused | labelprinterkit/job.py:44-47 | a page whose width is not positive is refused for an unset media size or on its width, so no such page enters a job |
| Jobs.AddPagesAppendsAdmitted | labelprinterkit/job.py:38-56 | after a series of `add_page` calls, the job holds its earlier pages followed by the accepted pages in order, and its settings are unchanged |
| Jobs.AddPagesLength | labelprinterkit/job.py:41-42 | `len(job)` grows by the number of accepted pages |
| Jobs.AdmittedAreAdmissible | labelprinterkit/job.py:44-56 | every page kept is one the job admits, and no more pages are kept than offered |
| Jobs.AddPagesKeepsValid | labelprinterkit/job.py:44-56 | a job whose pages all passed `add_page` stays so |
| Jobs.ConstructorSkipsValidation | labelprinterkit/job.py:31-33 | the constructor keeps a `cut_each` of 0 or 100 and an incompatible media type, which the intended check refuses |
| Jobs.NewJobChecked | labelprinterkit/job.py:22-23 | the intended constructor refuses the no-media and incompatible-tape types and a `cut_each` outside 1..99, and otherwise builds what the constructor builds |
| PrinterModels.CapabilityTable | labelprinterkit/printers/main.py:8-30 | the H500 and E500 have low resolution only and no half-cut; the other four models have both resolutions and half-cut |
| PrinterModels.ClassTotal | labelprinterkit/printers/main.py:41-55 | `Printer.printer` maps the six models to six different classes |
| PrinterModels.Find | labelprinterkit/printers/main.py:57-62 | the search returns a listed model whose lower-cased name is the lower-cased query, and returns nothing only when no listed model matches |
| PrinterModels.LoweredNamesDistinct | labelprinterkit/printers/main.py:33-39 | no two model names are equal once lower-cased |
| PrinterModels.Get | labelprinterkit/printers/main.py:57-62 | `Printer.get`: a model it returns has the query's name up to case, and it fails only when no listed model has |
| PrinterModels.GetIff | labelprinterkit/printers/main.py:57-62 | `Printer.get` returns a model exactly when its lower-cased name is the lower-cased query, and fails exactly when no model matches |
| PrinterModels.GetIgnoresCase | labelprinterkit/printers/main.py:57-61 | queries that agree once lower-cased find the same model |
| PrinterModels.GetExamples | labelprinterkit/printers/main.py:57-61 | "PTP_H500", "ptp_e550w" and "Ptp_750W" find their models |
| PrinterModels.GetUnknown | labelprinterkit/printers/main.py:62 | the bare class name "P700" finds no model |
| RasterLines.LineWrites | labelprinterkit/printers/__init__.py:155-157 | a page's line loop sends `47` + encoded line for each line in order, and stops at the first line that fails; it succeeds exactly when every line encodes |
| RasterLines.WritesAreRasterLines | labelprinterkit/printers/__init__.py:157 | every write of the line loop starts with the byte `47` |
| Protocol.VariousModeByte | labelprinterkit/printers/__init__.py:94-102 | the various-mode byte has the auto-cut bit exactly when auto-cut is on, the mirror bit exactly when mirroring is on, and no other bit |
| Protocol.AdvancedModeByte | labelprinterkit/printers/__init__.py:104-118 | the advanced-mode byte has the half-cut bit when half-cut is on, the chain bit when chain printing is off, the special-tape bit when special tape is on, the high-resolution bit at high resolution, and no other bit |
| Protocol.MarginBytes | labelprinterkit/printers/__init__.py:113-117 | the margin argument is 28 dots (`1C 00`) at high resolution and 14 dots (`0E 00`) at low |
| Protocol.Prepare | labelprinterkit/printers/__init__.py:84-120 | the checks before the first page pass exactly when: the media is accepted (package revision), the resolution is offered, both media fields are set, half-cut is available if asked for, and `cut_each` fits in a byte; the per-job bytes then carry the job's settings |
| Protocol.PageStructure | labelprinterkit/printers/__init__.py:122-163 | a page that succeeds sends its header, one raster-line command per line in order, end of page `5A`, and a form feed `0C` unless it is the last page |
| Protocol.HeaderCounts | labelprinterkit/printers/__init__.py:124-152 | a page header holds the print-information command twice on a page that repeats it and once otherwise, and the cut-each command exactly when the revision sends it |
| Protocol.PageCounts | labelprinterkit/printers/__init__.py:122-163 | a page that succeeds holds one end of page, one form feed unless it is the last page, and no eject |
| Protocol.Print | labelprinterkit/printers/__init__.py:79-166 | `print` in either revision (labelprinterkit/printers.py, lines 154-236 for the legacy one): every run opens with the reset; a job refused before its first page leaves only the reset and the reason; a run that succeeds ends with the eject `1A` |
| Protocol.PageRun | labelprinterkit/printers/__init__.py:122-163 | one page of the loop: it can fail only because the page cannot be split into lines or a line cannot be encoded |
| Protocol.PrintPackageAsWritten | labelprinterkit/printers/__init__.py:79-166 | the package `print` as written: it opens with the reset, never prints a job that has pages, and fails with the undefined name once the first page's lines are known |
| Protocol.PagesRun | labelprinterkit/printers/__init__.py:122-166 | a run of the remaining pages that succeeds ends with the eject `1A`, which it holds once; it holds one end of page per page, one form feed per page but the last, and the print-information and cut-each commands as often as the revision sends them |
| Protocol.PagesRunSucceeds | labelprinterkit/printers/__init__.py:122-166 | the run from page i ends without failure exactly when no page from i on fails, since the first failing page ends the loop |
| Protocol.PagesRunStep | labelprinterkit/printers/__init__.py:122-166 | a failing page ends the run with its own failure; a page sent in full hands the run on to the next page |
| Protocol.Reply | labelprinterkit/printers/__init__.py:63-70 | obtaining a reply fails exactly for a write-only backend, or for a side channel in the legacy revision |
| Protocol.GetStatus | labelprinterkit/printers/__init__.py:62-77 | a status read resets the printer and sends `1B 69 53` over a two-way connection and writes nothing otherwise; a decoded status comes from a reply of at least 32 bytes that decodes to it |
| ProtocolProperties.StartsWithReset | labelprinterkit/printers/__init__.py:58-60 | every run, failed or not, starts with 100 zero bytes and then `1B 40` |
| ProtocolProperties.RefusedBeforeFirstPage | labelprinterkit/printers/__init__.py:82-120 | refused media (package revision), an unsupported resolution, missing media, unavailable half-cut, or an oversized `cut_each` fail the run with only the reset written |
| ProtocolProperties.LowEndModelsRefuse | labelprinterkit/printers/main.py:20-26 | the H500 and E500 refuse a high-resolution or half-cut job after the reset |
| ProtocolProperties.LegacyHasNoMediaCheck | labelprinterkit/printers.py:157-160 | the legacy revision has no check for the no-media size or the incompatible-tape type and never fails with `UnsupportedMedia`; a missing media type or size still fails as `MissingMedia`, and a page on the no-media size fails on its first line for want of a margin; for a job with no pages on the no-media size, the legacy revision prints where the package revision refuses |
| ProtocolProperties.LegacyMediaFailures | labelprinterkit/printers.py:157-164 | in the legacy revision a job the printer's resolution allows but without a media type or size fails as missing media, and a job on the no-media size fails on the first line of its first page, since that size has no left margin |
| ProtocolProperties.PrintCounts | labelprinterkit/printers/__init__.py:122-166 | a printed job starts with the reset and ends with the eject, held once; it has one end of page per page and n-1 form feeds; print-information appears once per page, plus once more on the first page under auto-cut (package) or always (legacy); cut-each appears once per page when sent |
| ProtocolProperties.AdmittedPageSucceeds | labelprinterkit/printers/__init__.py:155-157 | a page the job admits is sent without failure |
| ProtocolProperties.ValidPagesSucceed | labelprinterkit/printers/__init__.py:122-163 | every page of a job built with `add_page` is sent without failure |
| ProtocolProperties.PagesSucceed | labelprinterkit/printers/__init__.py:122-163 | when every page from i on is sent in full, no page from i on fails |
| ProtocolProperties.ValidJobPrints | labelprinterkit/printers/__init__.py:122-166 | a job built with `add_page` that passes the checks prints to the end, and the eject is the last write |
| ProtocolProperties.PagesRunsAgree | labelprinterkit/printers.py:191-235 | with auto-cut on, the page loops of the two revisions send the same writes |
| ProtocolProperties.PageRunsAgree | labelprinterkit/printers.py:191-235 | with auto-cut on, both revisions send each page with the same writes |
| ProtocolProperties.RevisionsAgreeUnderAutoCut | labelprinterkit/printers.py:197-218 | with auto-cut on and media the package revision accepts, both revisions produce the same run |
| ProtocolProperties.AsWrittenStopsAtFirstLine | labelprinterkit/printers/__init__.py:155-156 | the package revision as written stops with a name error after the first page's header, while the corrected engine prints a job built with `add_page` |
| ProtocolProperties.StatusRequestWrites | labelprinterkit/printers.py:143-145 | over a two-way connection both revisions write the reset and `1B 69 53`, and treat the reply alike |
| ProtocolProperties.StatusReplyChecks | labelprinterkit/printers.py:140-150 | no reply or an empty one is "no response", a reply of 1 to 31 bytes is "invalid response", and a backend that cannot read fails without writing |
| ProtocolProperties.FullReplyDecodes | labelprinterkit/printers/__init__.py:71-77 | a reply of 32 bytes or more gives a status exactly when its codes are known, and that status is the decoded reply; it never fails as truncated |
| ProtocolProperties.SideChannelStatus | labelprinterkit/printers/__init__.py:63-64 | the package revision takes a side channel's reply without writing, and judges it like a read reply |

## Left out

- Backends: the USB, network and Bluetooth transports, their reads, and
  their sleep-based retries. A backend is only one of three capabilities:
  write-only, two-way, or side-channel status. Each reply is a parameter.
  Every backend write is taken to succeed: `TCPBackend.write` raises
  `IOError` when the socket sends nothing (labelprinterkit/backends/network.py,
  lines 21-24), and a USB write can raise too. Either would end a run after
  the writes before it, a path the model does not have.
- The `hasattr`/`isinstance` dispatch of the package `get_status`.
  - That dispatch names `UniDirectionalBackend`, which the module never
    imports. The model uses the explicit capability in its place.
  - Even with that import added, the test would misjudge the real backends.
    `BiDirectionalBackend` subclasses `UniDirectionalBackend`
    (labelprinterkit/backends/__init__.py, line 17), so the Bluetooth backend
    would be refused. `TCPBackend` is a plain `BaseBackend` without `read`
    (labelprinterkit/backends/network.py, line 6), so it would write the
    reset and the status request and then fail on `read`.
  - The model's `ReadWrite`/`WriteOnly` split applies the legacy
    `hasattr(read)` test to both revisions; only `SideChannel` differs
    between them.
  - In the legacy revision a side-channel backend is taken as one without
    `read`, so its status request fails as unidirectional.
- Logging, `__repr__`, the version lookup, and the exception classes. A
  failure is a value of `PrintError`, `StatusError`, `JobError` or
  `PageError` rather than a Python exception type.
- Rendering: labels, fonts, images, QR codes and `Page.from_image`. Pages
  arrive as finished byte buffers.
- `Status.media` and the `Media` enumeration. labelprinterkit/printers/__init__.py
  (line 10) and labelprinterkit/printers/status.py (line 2) import `Media`
  from labelprinterkit/constants.py, which does not define it, so both
  package modules fail on import as written. The model takes the import as
  repaired, and `Protocol.RejectedMedia` stands for the intended check
  against `Media.NO_MEDIA` and `Media.UNSUPPORTED_MEDIA`. `Status.media`
  is not modelled.
- PackBits.Encode: the model uses its own encoder following Apple Technical
  Note TN1023 in place of the outside `packbits` library. Only the round trip
  is promised, not the library's exact bytes. The decoder accepts the no-op
  header 128, which the encoder never produces.
- PrinterModels.Lower: lower-cases ASCII letters only. Python's `str.lower`
  also folds other letters, which cannot change a match against the ASCII
  model names.
- Bytes.ToBigEndian: requires that the value fits. `EncodeLine` checks the
  bound first and fails in place of Python's `OverflowError`.
- The legacy copies of `Error` and `Status` (labelprinterkit/printers.py,
  lines 19-92) decode identically to the package files and are modelled once.
  The legacy `Status` has no `media` property.
- Constants.Resolution.Dpi: the dots-per-inch pairs are recorded but not
  used by the engine.

## Findings

| source | as written | input that shows it | evidently intended | confidence | as-written member | corrected member |
|---|---|---|---|---|---|---|
| labelprinterkit/job.py:31-32 | the `ValueError` for a `cut_each` outside 1..99 (and, on line 23, for an invalid media type) is built but never raised, so the constructor accepts anything | `Job(cut_each=0)` or `Job(media_type=MediaType.INCOMPATIBLE_TAPE)` | the constructor refuses these configurations | not executed | Jobs.ConstructorSkipsValidation | Jobs.NewJobChecked |
| labelprinterkit/printers/__init__.py:156 | the line loop calls `logging.debug`, but the module imports only `getLogger`, so `logging` is an undefined name | any job that passes the checks and whose first page has at least one line, once the media lookup of line 84 is repaired as in the model | log through the module's `logger`, as the rest of the module does, and send every line | not executed | ProtocolProperties.AsWrittenStopsAtFirstLine | ProtocolProperties.ValidJobPrints |

=== FILE: bytes.dfy ===
/** A number below 256 survives the conversion to a byte and back. */
module ByteValues {
  lemma ByteOfNat(x: nat)
    requires x < 256
    ensures (x as bv8) as nat == x
  {
  }

  /** A byte string is its first `k` bytes followed by the rest. */
  lemma SplitJoin(s: seq<bv8>, k: nat)
    requires k <= |s|
    ensures s[..k] + s[k..] == s
  {
  }
}

/** Unsigned integers and their big- and little-endian byte forms, as Python's
    `int.from_bytes`, `int.to_bytes` and `struct.pack("<H", …)` use them. */
module Bytes {
  import opened ByteValues

  function Pow2(n: nat): (r: nat)
    ensures r >= 1
  {
    if n == 0 then 1 else 2 * Pow2(n - 1)
  }

  lemma {:induction false} Pow2Add(a: nat, b: nat)
    ensures Pow2(a + b) == Pow2(a) * Pow2(b)
    decreases a
  {
    if a > 0 {
      Pow2Add(a - 1, b);
      assert Pow2(a + b) == 2 * Pow2(a - 1 + b);
    }
  }

  lemma {:induction false} Pow2Monotonic(a: nat, b: nat)
    requires a <= b
    ensures Pow2(a) <= Pow2(b)
    decreases b
  {
    if a < b {
      Pow2Monotonic(a, b - 1);
    }
  }

  /** One more byte multiplies the range of an unsigned number by 256. */
  lemma Pow2Byte(k: nat)
    ensures Pow2(8 * k + 8) == 256 * Pow2(8 * k)
  {
    Pow2Add(8 * k, 8);
  }

  /** `int.from_bytes(s, "big")`: the most significant byte comes first. */
  function FromBigEndian(s: seq<bv8>): (n: nat)
    ensures n < Pow2(8 * |s|)
    decreases |s|
  {
    if s == [] then 0
    else
      var m := FromBigEndian(s[..|s| - 1]);
      Pow2Byte(|s| - 1);
      m * 256 + s[|s| - 1] as nat
  }

  /** `n.to_bytes(k, "big")`; Python raises OverflowError when `n` needs more
      than `k` bytes, which the precondition rules out (callers check it). */
  function ToBigEndian(n: nat, k: nat): (r: seq<bv8>)
    requires n < Pow2(8 * k)
    ensures |r| == k
    ensures FromBigEndian(r) == n
    decreases k
  {
    if k == 0 then []
    else
      Pow2Byte(k - 1);
      DivideByByte(n, Pow2(8 * (k - 1)));
      var high := ToBigEndian(n / 256, k - 1);
      ByteOfNat(n % 256);
      var r := high + [(n % 256) as bv8];
      assert r[..|r| - 1] == high;
      r
  }

  lemma DivideByByte(n: nat, p: nat)
    requires n < 256 * p
    ensures n / 256 < p
    ensures n == n / 256 * 256 + n % 256
  {
  }

  /** The big-endian form of a byte string is that byte string again, so a
      number has exactly one `k`-byte big-endian form. */
  lemma {:induction false} ToBigEndianOfFromBigEndian(s: seq<bv8>)
    ensures ToBigEndian(FromBigEndian(s), |s|) == s
    decreases |s|
  {
    if s != [] {
      var init := s[..|s| - 1];
      ToBigEndianOfFromBigEndian(init);
      var n := FromBigEndian(s);
      assert n / 256 == FromBigEndian(init);
      assert n % 256 == s[|s| - 1] as nat;
      assert s == init + [s[|s| - 1]];
    }
  }

  lemma BigEndianInjective(a: seq<bv8>, b: seq<bv8>)
    requires |a| == |b| && FromBigEndian(a) == FromBigEndian(b)
    ensures a == b
  {
    ToBigEndianOfFromBigEndian(a);
    ToBigEndianOfFromBigEndian(b);
  }

  function Zeros(n: nat): (r: seq<bv8>)
    ensures |r| == n
    ensures forall i :: 0 <= i < n ==> r[i] == 0
  {
    seq(n, _ => 0)
  }

  /** Leading zero bytes do not change a big-endian value. */
  lemma {:induction false} FromBigEndianLeadingZeros(m: nat, s: seq<bv8>)
    ensures FromBigEndian(Zeros(m) + s) == FromBigEndian(s)
    decreases |s|
  {
    if s == [] {
      FromBigEndianZeros(m);
      assert Zeros(m) + s == Zeros(m);
    } else {
      var init := s[..|s| - 1];
      FromBigEndianLeadingZeros(m, init);
      assert (Zeros(m) + s)[..|Zeros(m) + s| - 1] == Zeros(m) + init;
    }
  }

  lemma {:induction false} FromBigEndianZeros(m: nat)
    ensures FromBigEndian(Zeros(m)) == 0
    decreases m
  {
    if m > 0 {
      FromBigEndianZeros(m - 1);
      assert Zeros(m)[..m - 1] == Zeros(m - 1);
    }
  }

  /** `struct.pack("<H", n)`: an unsigned 16-bit value, low byte first. */
  function LittleEndian16(n: nat): (r: seq<bv8>)
    requires n < 0x1_0000
    ensures |r| == 2
    ensures r[0] as nat + 256 * r[1] as nat == n
  {
    DivideByByte(n, 256);
    ByteOfNat(n % 256);
    ByteOfNat(n / 256);
    [(n % 256) as bv8, (n / 256) as bv8]
  }
}

=== FILE: code_tables.dfy ===
/** The code lists of the status reply and the print-information command.
    Each list maps names to byte values; `FromByte` is the reverse lookup the
    status decoder does with a dictionary keyed by value, failing (`None`) on a
    byte no member carries. The `ensures` of each `FromByte` say that it finds
    exactly the member whose value is the byte, which also shows the values are
    pairwise distinct, so the reverse lookup is well defined. */
module CodeTables {
  import opened Results

  /** The kind of tape cassette, byte 11 of a status reply and the first operand of the print-information command. */
  datatype MediaType = NoMedia | LaminatedTape | NonLaminatedTape | HeatshrinkTube21 | HeatshrinkTube31 | IncompatibleTape {
    function Value(): bv8 {
      match this
      case NoMedia => 0x00
      case LaminatedTape => 0x01
      case NonLaminatedTape => 0x03
      case HeatshrinkTube21 => 0x11
      case HeatshrinkTube31 => 0x17
      case IncompatibleTape => 0xFF
    }

    static function FromByte(b: bv8): (r: Option<MediaType>)
      ensures r.Some? ==> r.value.Value() == b
    {
      match b
      case 0x00 => Some(NoMedia)
      case 0x01 => Some(LaminatedTape)
      case 0x03 => Some(NonLaminatedTape)
      case 0x11 => Some(HeatshrinkTube21)
      case 0x17 => Some(HeatshrinkTube31)
      case 0xFF => Some(IncompatibleTape)
      case _ => None
    }
  }

  /** Why the printer sent a status reply, byte 18. */
  datatype StatusCode = StatusReply | PrintingDone | ErrorOccurred | EditIfMode | TurnedOff | Notification | PhaseChange {
    function Value(): bv8 {
      match this
      case StatusReply => 0x00
      case PrintingDone => 0x01
      case ErrorOccurred => 0x02
      case EditIfMode => 0x03
      case TurnedOff => 0x04
      case Notification => 0x05
      case PhaseChange => 0x06
    }

    static function FromByte(b: bv8): (r: Option<StatusCode>)
      ensures r.Some? ==> r.value.Value() == b
    {
      match b
      case 0x00 => Some(StatusReply)
      case 0x01 => Some(PrintingDone)
      case 0x02 => Some(ErrorOccurred)
      case 0x03 => Some(EditIfMode)
      case 0x04 => Some(TurnedOff)
      case 0x05 => Some(Notification)
      case 0x06 => Some(PhaseChange)
      case _ => None
    }
  }

  /** The notification carried by a reply, byte 22. */
  datatype NotificationCode = NotAvailable | CoverOpened | CoverClosed {
    function Value(): bv8 {
      match this
      case NotAvailable => 0x00
      case CoverOpened => 0x01
      case CoverClosed => 0x02
    }

    static function FromByte(b: bv8): (r: Option<NotificationCode>)
      ensures r.Some? ==> r.value.Value() == b
    {
      match b
      case 0x00 => Some(NotAvailable)
      case 0x01 => Some(CoverOpened)
      case 0x02 => Some(CoverClosed)
      case _ => None
    }
  }

  /** Colour of the tape in the cassette, byte 24. */
  datatype TapeColor =
    | NoTape
    | White
    | Other
    | Clear
    | Red
    | Blue
    | Yellow
    | Green
    | Black
    | ClearWhiteText
    | MatteWhite
    | MatteClear
    | MatteSilver
    | SatinGold
    | SatinSilver
    | BlueD
    | RedD
    | FluorescentOrange
    | FluorescentYellow
    | BerryPinkS
    | LightGrayS
    | LimeGreenS
    | YellowF
    | PinkF
    | BlueF
    | WhiteHeatShrinkTube
    | WhiteFlexId
    | YellowFlexId
    | Cleaning
    | Stencil
    | Incompatible
  {
    function Value(): bv8 {
      match this
      case NoTape => 0x00
      case White => 0x01
      case Other => 0x02
      case Clear => 0x03
      case Red => 0x04
      case Blue => 0x05
      case Yellow => 0x06
      case Green => 0x07
      case Black => 0x08
      case ClearWhiteText => 0x09
      case MatteWhite => 0x20
      case MatteClear => 0x21
      case MatteSilver => 0x22
      case SatinGold => 0x23
      case SatinSilver => 0x24
      case BlueD => 0x30
      case RedD => 0x31
      case FluorescentOrange => 0x40
      case FluorescentYellow => 0x41
      case BerryPinkS => 0x50
      case LightGrayS => 0x51
      case LimeGreenS => 0x52
      case YellowF => 0x60
      case PinkF => 0x61
      case BlueF => 0x62
      case WhiteHeatShrinkTube => 0x70
      case WhiteFlexId => 0x90
      case YellowFlexId => 0x91
      case Cleaning => 0xF0
      case Stencil => 0xF1
      case Incompatible => 0xFF
    }

    static function FromByte(b: bv8): (r: Option<TapeColor>)
      ensures r.Some? ==> r.value.Value() == b
    {
      match b
      case 0x00 => Some(NoTape)
      case 0x01 => Some(White)
      case 0x02 => Some(Other)
      case 0x03 => Some(Clear)
      case 0x04 => Some(Red)
      case 0x05 => Some(Blue)
      case 0x06 => Some(Yellow)
      case 0x07 => Some(Green)
      case 0x08 => Some(Black)
      case 0x09 => Some(ClearWhiteText)
      case 0x20 => Some(MatteWhite)
      case 0x21 => Some(MatteClear)
      case 0x22 => Some(MatteSilver)
      case 0x23 => Some(SatinGold)
      case 0x24 => Some(SatinSilver)
      case 0x30 => Some(BlueD)
      case 0x31 => Some(RedD)
      case 0x40 => Some(FluorescentOrange)
      case 0x41 => Some(FluorescentYellow)
      case 0x50 => Some(BerryPinkS)
      case 0x51 => Some(LightGrayS)
      case 0x52 => Some(LimeGreenS)
      case 0x60 => Some(YellowF)
      case 0x61 => Some(PinkF)
      case 0x62 => Some(BlueF)
      case 0x70 => Some(WhiteHeatShrinkTube)
      case 0x90 => Some(WhiteFlexId)
      case 0x91 => Some(YellowFlexId)
      case 0xF0 => Some(Cleaning)
      case 0xF1 => Some(Stencil)
      case 0xFF => Some(Incompatible)
      case _ => None
    }
  }

  /** Colour of the ink ribbon in the cassette, byte 25. */
  datatype TextColor =
    | NoInk
    | WhiteInk
    | OtherInk
    | RedInk
    | BlueInk
    | BlackInk
    | GoldInk
    | BlueFInk
    | CleaningInk
    | StencilInk
    | IncompatibleInk
  {
    function Value(): bv8 {
      match this
      case NoInk => 0x00
      case WhiteInk => 0x01
      case OtherInk => 0x02
      case RedInk => 0x04
      case BlueInk => 0x05
      case BlackInk => 0x08
      case GoldInk => 0x0A
      case BlueFInk => 0x62
      case CleaningInk => 0xF0
      case StencilInk => 0xF1
      case IncompatibleInk => 0xFF
    }

    static function FromByte(b: bv8): (r: Option<TextColor>)
      ensures r.Some? ==> r.value.Value() == b
    {
      match b
      case 0x00 => Some(NoInk)
      case 0x01 => Some(WhiteInk)
      case 0x02 => Some(OtherInk)
      case 0x04 => Some(RedInk)
      case 0x05 => Some(BlueInk)
      case 0x08 => Some(BlackInk)
      case 0x0A => Some(GoldInk)
      case 0x62 => Some(BlueFInk)
      case 0xF0 => Some(CleaningInk)
      case 0xF1 => Some(StencilInk)
      case 0xFF => Some(IncompatibleInk)
      case _ => None
    }
  }

  /** Every member is found again from its own value. Together with the
      `ensures` of `FromByte` this makes each lookup the exact inverse of
      `Value` on the bytes it accepts. */
  lemma LookupComplete()
    ensures forall t: MediaType :: MediaType.FromByte(t.Value()) == Some(t)
    ensures forall t: StatusCode :: StatusCode.FromByte(t.Value()) == Some(t)
    ensures forall t: NotificationCode :: NotificationCode.FromByte(t.Value()) == Some(t)
    ensures forall t: TapeColor :: TapeColor.FromByte(t.Value()) == Some(t)
    ensures forall t: TextColor :: TextColor.FromByte(t.Value()) == Some(t)
  {
  }
}

=== FILE: constants.dfy ===
/** The fixed tables of the P-touch raster protocol that are not plain code
    lists: print resolutions, the bits of the "various mode" and "advanced
    mode" bytes, the status error bits, and the geometry of each tape width. */
module Constants {
  import opened Results

  /** Dots per inch across and along the tape. */
  datatype Resolution = Low | High {

    function Dpi(): (nat, nat) {
      match this
      case Low => (180, 180)
      case High => (180, 320)
    }

    /** Shortest page `Job.add_page` accepts at this resolution. */
    function MinLength(): nat {
      if this == Low then 31 else 62
    }
  }

  /** Bits of the byte sent with the various-mode command `1B 69 4D`. */
  datatype VariousModeSetting = AutoCut | MirrorPrinting {
    function Bit(): bv8 {
      match this
      case AutoCut => 0x40
      case MirrorPrinting => 0x80
    }
  }

  /** Bits of the byte sent with the advanced-mode command `1B 69 4B`. */
  datatype AdvancedModeSetting = HalfCut | ChainPrinting | SpecialTape | HighResolution | BufferClearing {
    function Bit(): bv8 {
      match this
      case HalfCut => 0x04
      case ChainPrinting => 0x08
      case SpecialTape => 0x10
      case HighResolution => 0x40
      case BufferClearing => 0x80
    }
  }

  /** The named bits of the 16-bit error word of a status reply. */
  datatype ErrorCode =
    | NoMediaError
    | CutterJam
    | WeakBattery
    | HighVoltageAdapter
    | ReplaceMedia
    | CoverOpen
    | Overheating
  {
    function Code(): bv16 {
      match this
      case NoMediaError => 0x0001
      case CutterJam => 0x0004
      case WeakBattery => 0x0008
      case HighVoltageAdapter => 0x0040
      case ReplaceMedia => 0x0100
      case CoverOpen => 0x1000
      case Overheating => 0x2000
    }
  }

  /** The union of all error codes: bits outside it name no error. */
  const KnownErrorBits: bv16 := 0x314D

  /** A byte with exactly one bit set. */
  predicate SingleBit8(b: bv8) {
    b != 0 && b & (b - 1) == 0
  }

  predicate SingleBit16(w: bv16) {
    w != 0 && w & (w - 1) == 0
  }

  /** Each mode setting is one bit and no two settings share it, so OR-ing
      the settings of a mode byte can always be undone. */
  lemma ModeBitsDistinct()
    ensures forall s: VariousModeSetting :: SingleBit8(s.Bit())
    ensures forall s: VariousModeSetting, t: VariousModeSetting :: s != t ==> s.Bit() & t.Bit() == 0
    ensures forall s: AdvancedModeSetting :: SingleBit8(s.Bit())
    ensures forall s: AdvancedModeSetting, t: AdvancedModeSetting :: s != t ==> s.Bit() & t.Bit() == 0
  {
  }

  /** Each error code is one bit of a 16-bit word, no two codes share it, and
      together they make up `KnownErrorBits`. */
  lemma ErrorCodesDistinct()
    ensures forall c: ErrorCode :: SingleBit16(c.Code())
    ensures forall c: ErrorCode, d: ErrorCode :: c != d ==> c.Code() & d.Code() == 0
    ensures forall c: ErrorCode :: c.Code() & KnownErrorBits == c.Code()
    ensures KnownErrorBits == NoMediaError.Code() | CutterJam.Code() | WeakBattery.Code()
      | HighVoltageAdapter.Code() | ReplaceMedia.Code() | CoverOpen.Code() | Overheating.Code()
  {
  }

  /** One tape width: its width in mm, its length (0: endless), and the dots
      left blank on each side of the print area of the 128-dot print head.
      The `None` entries belong to the no-media sentinel. */
  datatype TapeInfo = TapeInfo(
    width: nat,
    length: nat,
    leftMargin: Option<nat>,
    printArea: Option<nat>,
    rightMargin: Option<nat>)

  /** Dots across the print head; a raster line is 16 bytes. */
  const HeadDots: nat := 128

  datatype MediaSize = NoMedia | W3_5 | W6 | W9 | W12 | W18 | W24 {
    function Info(): (t: TapeInfo)
      ensures t.width < 256
    {
      match this
      case NoMedia => TapeInfo(0, 0, None, None, None)
      case W3_5 => TapeInfo(4, 0, Some(48), Some(32), Some(48))
      case W6 => TapeInfo(6, 0, Some(48), Some(32), Some(48))
      case W9 => TapeInfo(9, 0, Some(39), Some(50), Some(39))
      case W12 => TapeInfo(12, 0, Some(29), Some(70), Some(29))
      case W18 => TapeInfo(18, 0, Some(8), Some(112), Some(8))
      case W24 => TapeInfo(24, 0, Some(0), Some(128), Some(0))
    }
  }

  /** Every real tape width divides the 128-dot head into a left margin, a
      print area and a right margin; only the sentinel leaves them undefined. */
  lemma MediaFillsHead(m: MediaSize)
    ensures m == NoMedia <==> m.Info().printArea.None?
    ensures m != NoMedia ==>
      && m.Info().leftMargin.Some? && m.Info().printArea.Some? && m.Info().rightMargin.Some?
      && m.Info().leftMargin.value + m.Info().printArea.value + m.Info().rightMargin.value == HeadDots
      && m.Info().printArea.value > 0
  {
  }
}

=== FILE: error_flags.dfy ===
/** The error part of a status reply: two bytes read as one little-endian
    16-bit word, of which each named error code tests one bit. */
module ErrorFlags {
  import opened Constants

  /** All error codes, in declaration order. */
  const AllCodes: seq<ErrorCode> :=
    [NoMediaError, CutterJam, WeakBattery, HighVoltageAdapter, ReplaceMedia, CoverOpen, Overheating]

  lemma AllCodesComplete(c: ErrorCode)
    ensures c in AllCodes
  {
  }

  /** `byte1 | (byte2 << 8)`: the first byte is the low half of the word and
      the second the high half, i.e. the word is stored little-endian. */
  function Word(byte1: bv8, byte2: bv8): (w: bv16)
    ensures w & 0xFF == byte1 as bv16
    ensures w >> 8 == byte2 as bv16
  {
    (byte1 as bv16) | ((byte2 as bv16) << 8)
  }

  /** The decoded error record: which named errors are reported. */
  datatype Errors = Errors(flags: set<ErrorCode>) {

    /** Attribute lookup of one named flag. */
    predicate Flag(code: ErrorCode) {
      code in flags
    }

    /** True when at least one of the named flags is set. */
    predicate Any() {
      exists c :: c in AllCodes && Flag(c)
    }
  }

  /** A flag is set when the word has that code's bit. */
  function FromWord(w: bv16): (e: Errors)
    ensures forall c: ErrorCode :: e.Flag(c) <==> w & c.Code() != 0
  {
    Errors(set c | c in AllCodes && w & c.Code() != 0)
  }

  function Decode(byte1: bv8, byte2: bv8): Errors {
    FromWord(Word(byte1, byte2))
  }

  /** `Any` holds exactly when some known bit is set; no flag is lost and no
      unnamed bit counts. */
  lemma AnyIffKnownBit(w: bv16)
    ensures FromWord(w).Any() <==> w & KnownErrorBits != 0
  {
    var e := FromWord(w);
    if w & KnownErrorBits != 0 {
      var c: ErrorCode :| w & c.Code() != 0 by {
        KnownBitHasCode(w);
      }
      AllCodesComplete(c);
      assert c in AllCodes && e.Flag(c);
    } else {
      forall c: ErrorCode | c in AllCodes
        ensures !e.Flag(c)
      {
        ErrorCodesDistinct();
        assert c.Code() & KnownErrorBits == c.Code();
      }
    }
  }

  lemma KnownBitHasCode(w: bv16)
    requires w & KnownErrorBits != 0
    ensures exists c: ErrorCode :: w & c.Code() != 0
  {
    if w & 0x0001 != 0 { assert w & NoMediaError.Code() != 0; }
    else if w & 0x0004 != 0 { assert w & CutterJam.Code() != 0; }
    else if w & 0x0008 != 0 { assert w & WeakBattery.Code() != 0; }
    else if w & 0x0040 != 0 { assert w & HighVoltageAdapter.Code() != 0; }
    else if w & 0x0100 != 0 { assert w & ReplaceMedia.Code() != 0; }
    else if w & 0x1000 != 0 { assert w & CoverOpen.Code() != 0; }
    else { assert w & Overheating.Code() != 0; }
  }

  /** Bits that belong to no error code never change the decoded record. */
  lemma UnknownBitsIgnored(w: bv16, extra: bv16)
    requires extra & KnownErrorBits == 0
    ensures FromWord(w | extra) == FromWord(w)
  {
    forall c: ErrorCode
      ensures (w | extra) & c.Code() != 0 <==> w & c.Code() != 0
    {
      ErrorCodesDistinct();
      assert extra & c.Code() == 0;
    }
    assert FromWord(w | extra).flags == FromWord(w).flags;
  }

  /** A flag read straight off the two reply bytes: codes below 0x100 are
      bits of the first byte, the others bits of the second. */
  lemma FlagFromBytes(byte1: bv8, byte2: bv8, c: ErrorCode)
    ensures Decode(byte1, byte2).Flag(c) <==>
      if c.Code() < 0x100 then byte1 & (c.Code() as bv8) != 0
      else byte2 & ((c.Code() >> 8) as bv8) != 0
  {
    var w := Word(byte1, byte2);
    assert Decode(byte1, byte2).Flag(c) <==> w & c.Code() != 0;
    assert w & c.Code() != 0 <==>
      if c.Code() < 0x100 then byte1 & (c.Code() as bv8) != 0
      else byte2 & ((c.Code() >> 8) as bv8) != 0
    by {
      WordBits(w, byte1, byte2);
      match c
      case NoMediaError =>
      case CutterJam =>
      case WeakBattery =>
      case HighVoltageAdapter =>
      case ReplaceMedia =>
      case CoverOpen =>
      case Overheating =>
    }
  }

  /** Some error is reported exactly when the first byte has one of the bits
      0x4D or the second byte one of the bits 0x31. */
  lemma AnyFromBytes(byte1: bv8, byte2: bv8)
    ensures Decode(byte1, byte2).Any() <==> byte1 & 0x4D != 0 || byte2 & 0x31 != 0
  {
    var w := Word(byte1, byte2);
    AnyIffKnownBit(w);
    assert w & KnownErrorBits != 0 <==> byte1 & 0x4D != 0 || byte2 & 0x31 != 0 by {
      KnownBitsOfWord(w, byte1, byte2);
    }
  }

  lemma KnownBitsOfWord(w: bv16, byte1: bv8, byte2: bv8)
    requires w & 0xFF == byte1 as bv16 && w >> 8 == byte2 as bv16
    ensures w & 0x314D != 0 <==> byte1 & 0x4D != 0 || byte2 & 0x31 != 0
  {
  }

  lemma WordBits(w: bv16, byte1: bv8, byte2: bv8)
    requires w & 0xFF == byte1 as bv16 && w >> 8 == byte2 as bv16
    ensures w & 0x0001 != 0 <==> byte1 & 0x01 != 0
    ensures w & 0x0004 != 0 <==> byte1 & 0x04 != 0
    ensures w & 0x0008 != 0 <==> byte1 & 0x08 != 0
    ensures w & 0x0040 != 0 <==> byte1 & 0x40 != 0
    ensures w & 0x0100 != 0 <==> byte2 & 0x01 != 0
    ensures w & 0x1000 != 0 <==> byte2 & 0x10 != 0
    ensures w & 0x2000 != 0 <==> byte2 & 0x20 != 0
  {
  }

  /** Bytes 01 00 report exactly the missing-media error. */
  lemma NoMediaExample()
    ensures Decode(0x01, 0x00).flags == {NoMediaError}
    ensures Decode(0x01, 0x00).Any()
  {
    var e := Decode(0x01, 0x00);
    FlagFromBytes(0x01, 0x00, NoMediaError);
    assert e.Flag(NoMediaError);
    assert e.flags == {NoMediaError};
    AllCodesComplete(NoMediaError);
  }
}

=== FILE: job.dfy ===
/** A print job: the tape it is meant for, the cutting and printing options,
    and the pages accepted so far. Pages enter only through `AddPage`, which
    checks each one against the job's tape and resolution. */
module Jobs {
  import opened Results
  import opened Constants
  import opened CodeTables
  import opened Pages

  /** Both media fields may be unset (`None`), as they are by default. */
  datatype Job = Job(
    mediaSize: Option<MediaSize>,
    mediaType: Option<MediaType>,
    autoCut: bool,
    mirrorPrinting: bool,
    halfCut: bool,
    chain: bool,
    specialTape: bool,
    cutEach: int,
    resolution: Resolution,
    pages: seq<Page>)
  {
    /** Number of pages, `len(job)`; iterating a job yields `pages` in order. */
    function Len(): nat {
      |pages|
    }
  }

  /** What `AddPage` demands of a page; it depends on the job's settings only,
      never on the pages already accepted. */
  predicate Admits(job: Job, page: Page) {
    && job.mediaSize.Some?
    && job.mediaSize.value.Info().printArea == Some(page.width)
    && page.resolution == job.resolution
    && page.length >= job.resolution.MinLength()
  }

  /** Every page of the job passed `AddPage`. */
  predicate Valid(job: Job) {
    forall i :: 0 <= i < |job.pages| ==> Admits(job, job.pages[i])
  }

  /** The constructor with its defaults. It stores every argument as given:
      the constructor builds errors for a bad media type or a `cut_each` outside
      1..99 but never raises them, so no argument is refused. */
  function NewJob(
    mediaSize: Option<MediaSize> := None,
    mediaType: Option<MediaType> := None,
    autoCut: bool := true,
    mirrorPrinting: bool := false,
    halfCut: bool := false,
    chain: bool := false,
    specialTape: bool := false,
    cutEach: int := 1,
    resolution: Resolution := Low): (j: Job)
    ensures j.pages == [] && Valid(j) && j.Len() == 0
    ensures j.mediaSize == mediaSize && j.mediaType == mediaType
    ensures j.autoCut == autoCut && j.mirrorPrinting == mirrorPrinting && j.halfCut == halfCut
    ensures j.chain == chain && j.specialTape == specialTape
    ensures j.cutEach == cutEach && j.resolution == resolution
  {
    Job(mediaSize, mediaType, autoCut, mirrorPrinting, halfCut, chain, specialTape, cutEach, resolution, [])
  }

  datatype JobError =
    | MediaSizeUnset      // the job has no media size to take the print area from
    | WidthMismatch       // the page is not as wide as the tape's print area
    | ResolutionMismatch  // the page was rendered for another resolution
    | PageTooShort        // the page is shorter than the resolution's minimum

  /** `Job.add_page`. The checks run in `add_page`'s order, so the error names
      the first one that fails; an accepted page goes to the end of the job. */
  function AddPage(job: Job, page: Page): (r: Result<Job, JobError>)
    ensures r.Ok? <==> Admits(job, page)
    ensures r.Ok? ==> r.value == job.(pages := job.pages + [page])
    ensures r == Err(MediaSizeUnset) <==> job.mediaSize.None?
    ensures r == Err(WidthMismatch) <==>
      job.mediaSize.Some? && job.mediaSize.value.Info().printArea != Some(page.width)
    ensures r == Err(ResolutionMismatch) <==>
      && job.mediaSize.Some? && job.mediaSize.value.Info().printArea == Some(page.width)
      && page.resolution != job.resolution
  {
    if job.mediaSize.None? then Err(MediaSizeUnset)
    else if job.mediaSize.value.Info().printArea != Some(page.width) then Err(WidthMismatch)
    else if page.resolution != job.resolution then Err(ResolutionMismatch)
    else
      var minLength := if job.resolution == Low then 31 else 62;
      if page.length < minLength then Err(PageTooShort)
      else Ok(job.(pages := job.pages + [page]))
  }

  /** Accepting a page keeps every page of the job admissible, and the
      earlier pages stay where they were. */
  lemma AddPagePreservesValid(job: Job, page: Page)
    requires Valid(job) && AddPage(job, page).Ok?
    ensures Valid(AddPage(job, page).value)
    ensures AddPage(job, page).value.Len() == job.Len() + 1
    ensures AddPage(job, page).value.pages[..job.Len()] == job.pages
  {
    var j := AddPage(job, page).value;
    forall i | 0 <= i < |j.pages|
      ensures Admits(j, j.pages[i])
    {
      if i < |job.pages| {
        assert j.pages[i] == job.pages[i];
        assert Admits(job, job.pages[i]);
      }
    }
  }

  /** Minimum lengths: a page one line shorter than the minimum is refused, a
      page exactly at the minimum is accepted (31 lines at low resolution, 62
      at high). */
  lemma MinLengthBoundary(job: Job, page: Page)
    requires job.mediaSize.Some? && job.mediaSize.value.Info().printArea == Some(page.width)
    requires page.resolution == job.resolution
    ensures AddPage(job, page).Ok? <==> page.length >= job.resolution.MinLength()
    ensures job.resolution == Low ==> (AddPage(job, page).Ok? <==> page.length >= 31)
    ensures job.resolution == High ==> (AddPage(job, page).Ok? <==> page.length >= 62)
    ensures page.length + 1 == job.resolution.MinLength() ==> AddPage(job, page) == Err(PageTooShort)
  {
  }

  /** A job for the no-media sentinel, or with no media size at all, accepts
      no page: the sentinel has no print area to match. */
  lemma NoMediaAcceptsNothing(job: Job, page: Page)
    requires job.mediaSize.None? || job.mediaSize == Some(MediaSize.NoMedia)
    ensures AddPage(job, page).Err?
  {
  }

  /** A page with no positive width, which the page constructor may still
      have built, never matches a print area and is refused on its width. */
  lemma NonPositiveWidthRefused(job: Job, page: Page)
    requires page.width <= 0
    ensures AddPage(job, page) == Err(MediaSizeUnset) || AddPage(job, page) == Err(WidthMismatch)
  {
    if job.mediaSize.Some? {
      MediaFillsHead(job.mediaSize.value);
    }
  }

  /** The pages of `ps` that `job` admits, in their order. */
  function Admitted(job: Job, ps: seq<Page>): seq<Page>
    decreases |ps|
  {
    if ps == [] then []
    else (if Admits(job, ps[0]) then [ps[0]] else []) + Admitted(job, ps[1..])
  }

  /** Offering each page of `ps` in turn and keeping the job unchanged when a
      page is refused. */
  function AddPages(job: Job, ps: seq<Page>): Job
    decreases |ps|
  {
    if ps == [] then job
    else
      match AddPage(job, ps[0])
      case Ok(next) => AddPages(next, ps[1..])
      case Err(_) => AddPages(job, ps[1..])
  }

  /** After a run of `add_page` calls the job holds its earlier pages followed
      by exactly the accepted pages, in the order they were offered, and its
      settings are untouched. */
  lemma {:induction false} AddPagesAppendsAdmitted(job: Job, ps: seq<Page>)
    ensures AddPages(job, ps) == job.(pages := job.pages + Admitted(job, ps))
    decreases |ps|
  {
    if ps != [] {
      var r := AddPage(job, ps[0]);
      if r.Ok? {
        var next := r.value;
        assert next == job.(pages := job.pages + [ps[0]]);
        AddPagesAppendsAdmitted(next, ps[1..]);
        AdmittedSameSettings(job, next, ps[1..]);
        assert Admitted(job, ps) == [ps[0]] + Admitted(job, ps[1..]);
        assert job.pages + [ps[0]] + Admitted(job, ps[1..]) == job.pages + Admitted(job, ps);
      } else {
        AddPagesAppendsAdmitted(job, ps[1..]);
        assert Admitted(job, ps) == Admitted(job, ps[1..]);
      }
    }
  }

  /** The job grows by one page per accepted page. */
  lemma AddPagesLength(job: Job, ps: seq<Page>)
    ensures AddPages(job, ps).Len() == job.Len() + |Admitted(job, ps)|
  {
    AddPagesAppendsAdmitted(job, ps);
  }

  /** Every page kept by `Admitted` is one the job admits. */
  lemma {:induction false} AdmittedAreAdmissible(job: Job, ps: seq<Page>)
    ensures forall i :: 0 <= i < |Admitted(job, ps)| ==> Admits(job, Admitted(job, ps)[i])
    ensures |Admitted(job, ps)| <= |ps|
    decreases |ps|
  {
    if ps != [] {
      AdmittedAreAdmissible(job, ps[1..]);
    }
  }

  /** A run of `add_page` calls keeps a valid job valid. */
  lemma AddPagesKeepsValid(job: Job, ps: seq<Page>)
    requires Valid(job)
    ensures Valid(AddPages(job, ps))
  {
    AddPagesAppendsAdmitted(job, ps);
    AdmittedAreAdmissible(job, ps);
    var j := AddPages(job, ps);
    var a := Admitted(job, ps);
    forall i | 0 <= i < |j.pages|
      ensures Admits(j, j.pages[i])
    {
      if i < |job.pages| {
        assert j.pages[i] == job.pages[i];
      } else {
        assert j.pages[i] == a[i - |job.pages|];
      }
    }
  }

  /** Admission depends on the settings, not on the pages held. */
  lemma {:induction false} AdmittedSameSettings(a: Job, b: Job, ps: seq<Page>)
    requires a.(pages := []) == b.(pages := [])
    ensures Admitted(a, ps) == Admitted(b, ps)
    decreases |ps|
  {
    if ps != [] {
      AdmittedSameSettings(a, b, ps[1..]);
    }
  }

  /** Why the intended constructor refuses a configuration. */
  datatype ConfigError = InvalidMediaType | CutEachOutOfRange

  /** The constructor as its error messages say it was meant to behave: the
      no-media and incompatible-tape types are refused, and so is a `cut_each`
      outside 1..99. Everything it accepts is what `NewJob` builds. */
  function NewJobChecked(
    mediaSize: Option<MediaSize> := None,
    mediaType: Option<MediaType> := None,
    autoCut: bool := true,
    mirrorPrinting: bool := false,
    halfCut: bool := false,
    chain: bool := false,
    specialTape: bool := false,
    cutEach: int := 1,
    resolution: Resolution := Low): (r: Result<Job, ConfigError>)
    ensures r.Ok? <==>
      && mediaType != Some(MediaType.NoMedia) && mediaType != Some(IncompatibleTape)
      && 1 <= cutEach <= 99
    ensures r.Ok? ==> 1 <= r.value.cutEach <= 99
    ensures r.Ok? ==>
      r.value == NewJob(mediaSize, mediaType, autoCut, mirrorPrinting, halfCut, chain, specialTape, cutEach, resolution)
  {
    if mediaType == Some(MediaType.NoMedia) || mediaType == Some(IncompatibleTape) then Err(InvalidMediaType)
    else if !(1 <= cutEach <= 99) then Err(CutEachOutOfRange)
    else Ok(NewJob(mediaSize, mediaType, autoCut, mirrorPrinting, halfCut, chain, specialTape, cutEach, resolution))
  }

  /** The constructor as written keeps a `cut_each` of 0 or 100 and an
      incompatible media type, all of which the intended check refuses. */
  lemma ConstructorSkipsValidation()
    ensures NewJob(cutEach := 0).cutEach == 0
    ensures NewJob(cutEach := 100).cutEach == 100
    ensures NewJob(mediaType := Some(IncompatibleTape)).mediaType == Some(IncompatibleTape)
    ensures NewJobChecked(cutEach := 0) == Err(CutEachOutOfRange)
    ensures NewJobChecked(cutEach := 100) == Err(CutEachOutOfRange)
    ensures NewJobChecked(mediaType := Some(IncompatibleTape)) == Err(InvalidMediaType)
  {
  }
}

=== FILE: line_encoder.dfy ===
/** The raster-line encoder. A line of the page is read as one big-endian
    number, shifted left by the tape's left margin so that it lands in the
    print area of the 128-dot head, written back as 16 bytes, compressed with
    PackBits and prefixed with the compressed length. */
module LineEncoder {
  import opened Results
  import opened Bytes
  import opened Constants
  import PackBits
  import Pages

  /** Bytes in one uncompressed raster line: the 128 dots of the head. */
  const LineBytes: nat := 16

  /** `v << n` on Python's unbounded integers: `v` doubled `n` times. */
  function ShiftLeft(v: nat, n: nat): nat
    decreases n
  {
    if n == 0 then v else 2 * ShiftLeft(v, n - 1)
  }

  /** The shift is a multiplication by 2^n. */
  lemma {:induction false} ShiftIsMultiplication(v: nat, n: nat)
    ensures ShiftLeft(v, n) == v * Pow2(n)
    decreases n
  {
    if n > 0 {
      ShiftIsMultiplication(v, n - 1);
      assert 2 * (v * Pow2(n - 1)) == v * (2 * Pow2(n - 1));
    }
  }

  /** The line shifted by `padding` dots, as 16 big-endian bytes; `None` when
      the shifted value needs more than 16 bytes (Python's OverflowError). */
  function PaddedLine(line: seq<bv8>, padding: nat): (r: Option<seq<bv8>>)
    ensures r.Some? <==> ShiftLeft(FromBigEndian(line), padding) < Pow2(8 * LineBytes)
    ensures r.Some? ==> |r.value| == LineBytes
    ensures r.Some? ==> FromBigEndian(r.value) == ShiftLeft(FromBigEndian(line), padding)
  {
    var v := ShiftLeft(FromBigEndian(line), padding);
    if v < Pow2(8 * LineBytes) then Some(ToBigEndian(v, LineBytes)) else None
  }

  /** `encode_line`: the little-endian 16-bit length of the compressed line,
      then the compressed line, which decompresses to the padded line. */
  function EncodeLine(line: seq<bv8>, padding: nat): (r: Option<seq<bv8>>)
    ensures r.Some? <==> PaddedLine(line, padding).Some?
    ensures r.Some? ==> 2 <= |r.value| <= 2 + 2 * LineBytes
    ensures r.Some? ==> r.value[0] as nat + 256 * r.value[1] as nat == |r.value| - 2
    ensures r.Some? ==> PackBits.Decode(r.value[2..]) == PaddedLine(line, padding)
  {
    var padded :- PaddedLine(line, padding);
    var compressed := PackBits.Encode(padded);
    PackBits.RoundTrip(padded);
    var out := LittleEndian16(|compressed|) + compressed;
    assert out[2..] == compressed;
    Some(out)
  }

  /** The padded line is the only 16-byte string whose value is the line's
      value shifted by `padding`: any such string is what `PaddedLine`
      returns. */
  lemma PaddedLineUnique(line: seq<bv8>, padding: nat, out: seq<bv8>)
    requires |out| == LineBytes
    requires FromBigEndian(out) == ShiftLeft(FromBigEndian(line), padding)
    ensures PaddedLine(line, padding) == Some(out)
  {
    BigEndianInjective(PaddedLine(line, padding).value, out);
  }

  /** Without a shift a line of at most 16 bytes is right-aligned, with zero
      bytes in front of it. */
  lemma UnshiftedLine(line: seq<bv8>)
    requires |line| <= LineBytes
    ensures PaddedLine(line, 0) == Some(Zeros(LineBytes - |line|) + line)
  {
    FromBigEndianLeadingZeros(LineBytes - |line|, line);
    PaddedLineUnique(line, 0, Zeros(LineBytes - |line|) + line);
  }

  /** A one-byte line `FF` shifted by 8 dots ends up in bytes 14 and 15:
      the shift moves dots towards the start of the line, counted from its
      least significant end. */
  lemma MarginShiftExample()
    ensures PaddedLine([0xFF], 8) == Some(Zeros(14) + [0xFF, 0x00])
  {
    var out := Zeros(14) + [0xFF, 0x00];
    assert FromBigEndian([0xFF]) == 255 by {
      assert [0xFF][..0] == [];
    }
    assert FromBigEndian([0xFF, 0x00]) == 255 * 256 by {
      assert [0xFF, 0x00][..1] == [0xFF];
    }
    ShiftByteStep(255, 0);
    FromBigEndianLeadingZeros(14, [0xFF, 0x00]);
    PaddedLineUnique([0xFF], 8, out);
  }

  /** Eight more dots of shift multiply by 256. */
  lemma {:induction false} ShiftByteStep(v: nat, n: nat)
    ensures ShiftLeft(v, n + 8) == 256 * ShiftLeft(v, n)
    decreases n
  {
    if n == 0 {
      calc {
        ShiftLeft(v, 8);
        2 * ShiftLeft(v, 7);
        4 * ShiftLeft(v, 6);
        8 * ShiftLeft(v, 5);
        16 * ShiftLeft(v, 4);
        32 * ShiftLeft(v, 3);
        64 * ShiftLeft(v, 2);
        128 * ShiftLeft(v, 1);
        256 * v;
      }
    } else {
      ShiftByteStep(v, n - 1);
    }
  }

  /** A value below 2^k shifted by `n` stays below 2^(k+n). */
  lemma {:induction false} ShiftBound(v: nat, k: nat, n: nat)
    requires v < Pow2(k)
    ensures ShiftLeft(v, n) < Pow2(k + n)
    decreases n
  {
    if n > 0 {
      ShiftBound(v, k, n - 1);
    }
  }

  /** A line of `n` bytes shifted by `padding` dots fits whenever
      `8 * n + padding` is at most the 128 dots of the head. */
  lemma FitsHead(line: seq<bv8>, padding: nat)
    requires 8 * |line| + padding <= 8 * LineBytes
    ensures PaddedLine(line, padding).Some?
  {
    ShiftBound(FromBigEndian(line), 8 * |line|, padding);
    Pow2Monotonic(8 * |line| + padding, 8 * LineBytes);
  }

  /** For every real tape, a full line of the print area shifted by the left
      margin stays within the 128-dot head. */
  lemma TapeLinesFit(m: MediaSize)
    requires m != MediaSize.NoMedia
    ensures m.Info().printArea.Some? && m.Info().leftMargin.Some?
    ensures 8 * Pages.BytesPerLine(m.Info().printArea.value) + m.Info().leftMargin.value <= 8 * LineBytes
  {
  }

  /** Hence no line of a page that fits the tape fails to encode. */
  lemma TapeLineEncodes(m: MediaSize, line: seq<bv8>)
    requires m != MediaSize.NoMedia
    requires |line| <= Pages.BytesPerLine(m.Info().printArea.value)
    ensures EncodeLine(line, m.Info().leftMargin.value).Some?
  {
    TapeLinesFit(m);
    FitsHead(line, m.Info().leftMargin.value);
  }

  /** A line too wide for the shift is refused: a 16-byte line whose first
      byte is `FF` cannot move by even one dot. */
  lemma OverflowExample(line: seq<bv8>)
    requires |line| == LineBytes && line[0] == 0xFF
    ensures EncodeLine(line, 1).None?
  {
    var rest := line[1..];
    assert line == [0xFF] + rest;
    LeadingByteValue(0xFF, rest);
    ShiftIsMultiplication(255, 8 * 15);
    Pow2Byte(15);
  }

  /** The first byte of a big-endian number counts 256^(n-1) times. */
  lemma {:induction false} LeadingByteValue(b: bv8, rest: seq<bv8>)
    ensures FromBigEndian([b] + rest) == ShiftLeft(b as nat, 8 * |rest|) + FromBigEndian(rest)
    decreases |rest|
  {
    var s := [b] + rest;
    if rest == [] {
      assert s[..0] == [];
    } else {
      var init := rest[..|rest| - 1];
      LeadingByteValue(b, init);
      assert s[..|s| - 1] == [b] + init;
      ShiftByteStep(b as nat, 8 * |init|);
    }
  }
}

=== FILE: packbits.dfy ===
/** PackBits run-length coding as Apple Technical Note TN1023 describes it.
    A header byte n in 0..127 is followed by n + 1 literal bytes; a header in
    129..255 (-127..-1 as a signed byte) is followed by one byte to be repeated
    257 - n times; the header 128 (-128) is a no-op. The printer library calls an
    outside implementation (`packbits.encode`); this encoder is an independent
    one, so only the round trip is promised, not identical bytes. */
module PackBits {
  import opened Results
  import Bytes
  import ByteValues

  /** The longest run, literal or repeated, that one header can describe. */
  const MaxRun: nat := 128

  function Repeat(b: bv8, n: nat): (r: seq<bv8>)
    ensures |r| == n
    ensures forall i :: 0 <= i < n ==> r[i] == b
  {
    seq(n, _ => b)
  }

  /** Number of leading bytes equal to `s[0]`, at most `MaxRun`. */
  function RunLength(s: seq<bv8>): (r: nat)
    requires |s| > 0
    ensures 1 <= r <= |s| && r <= MaxRun
    ensures forall i :: 0 <= i < r ==> s[i] == s[0]
    ensures r < |s| && r < MaxRun ==> s[r] != s[0]
  {
    RunFrom(s, 1)
  }

  function RunFrom(s: seq<bv8>, k: nat): (r: nat)
    requires 1 <= k <= |s| && k <= MaxRun
    requires forall i :: 0 <= i < k ==> s[i] == s[0]
    ensures k <= r <= |s| && r <= MaxRun
    ensures forall i :: 0 <= i < r ==> s[i] == s[0]
    ensures r < |s| && r < MaxRun ==> s[r] != s[0]
    decreases |s| - k
  {
    if k == |s| || k == MaxRun || s[k] != s[0] then k else RunFrom(s, k + 1)
  }

  /** Length of the literal stretch at the front of `s`: it stops before the
      first byte that starts a repeat, after `MaxRun` bytes, or at the end. */
  function LiteralLength(s: seq<bv8>): (r: nat)
    requires |s| > 0
    ensures 1 <= r <= |s| && r <= MaxRun
  {
    LiteralFrom(s, 1)
  }

  function LiteralFrom(s: seq<bv8>, k: nat): (r: nat)
    requires 1 <= k <= |s| && k <= MaxRun
    ensures k <= r <= |s| && r <= MaxRun
    decreases |s| - k
  {
    if k == |s| || k == MaxRun || (k + 1 < |s| && s[k] == s[k + 1]) then k
    else LiteralFrom(s, k + 1)
  }

  /** Header of a literal stretch of `n` bytes. */
  function LiteralHeader(n: nat): (h: bv8)
    requires 1 <= n <= MaxRun
    ensures h as nat == n - 1
  {
    ByteValues.ByteOfNat(n - 1);
    (n - 1) as bv8
  }

  /** Header of a repeat of `n` copies. */
  function RepeatHeader(n: nat): (h: bv8)
    requires 2 <= n <= MaxRun
    ensures h as nat == 257 - n
  {
    ByteValues.ByteOfNat(257 - n);
    (257 - n) as bv8
  }

  function Encode(s: seq<bv8>): (r: seq<bv8>)
    ensures |r| <= 2 * |s|
    decreases |s|
  {
    if s == [] then []
    else
      var n := RunLength(s);
      if n >= 2 then [RepeatHeader(n), s[0]] + Encode(s[n..])
      else
        var l := LiteralLength(s);
        [LiteralHeader(l)] + s[..l] + Encode(s[l..])
  }

  /** Unpacking. A header whose data bytes are missing makes it fail. */
  function Decode(s: seq<bv8>): (r: Option<seq<bv8>>)
    decreases |s|
  {
    if s == [] then Some([])
    else
      var h := s[0] as nat;
      if h < 128 then
        if |s| < h + 2 then None
        else
          var rest :- Decode(s[h + 2..]);
          Some(s[1..h + 2] + rest)
      else if h == 128 then Decode(s[1..])
      else if |s| < 2 then None
      else
        var rest :- Decode(s[2..]);
        Some(Repeat(s[1], 257 - h) + rest)
  }

  /** Unpacking what was packed gives back the original bytes. */
  lemma {:induction false} RoundTrip(s: seq<bv8>)
    ensures Decode(Encode(s)) == Some(s)
    decreases |s|, 1
  {
    if s != [] {
      if RunLength(s) >= 2 {
        RoundTripRepeat(s);
      } else {
        RoundTripLiteral(s);
      }
    }
  }

  lemma {:induction false} RoundTripRepeat(s: seq<bv8>)
    requires |s| > 0 && RunLength(s) >= 2
    ensures Decode(Encode(s)) == Some(s)
    decreases |s|, 0
  {
    var n := RunLength(s);
    var rest := s[n..];
    RoundTrip(rest);
    EncodeRepeatStep(s);
    DecodeRepeat(n, s[0], Encode(rest), rest);
    RunIsRepeat(s, n);
    ByteValues.SplitJoin(s, n);
  }

  /** A run at the front of `s` is that many copies of its first byte. */
  lemma RunIsRepeat(s: seq<bv8>, n: nat)
    requires 1 <= n <= |s|
    requires forall i :: 0 <= i < n ==> s[i] == s[0]
    ensures Repeat(s[0], n) == s[..n]
  {
  }

  lemma {:induction false} RoundTripLiteral(s: seq<bv8>)
    requires |s| > 0 && RunLength(s) < 2
    ensures Decode(Encode(s)) == Some(s)
    decreases |s|, 0
  {
    var l := LiteralLength(s);
    var rest := s[l..];
    RoundTrip(rest);
    EncodeLiteralStep(s);
    DecodeLiteral(s[..l], Encode(rest), rest);
    ByteValues.SplitJoin(s, l);
  }

  lemma EncodeLiteralStep(s: seq<bv8>)
    requires |s| > 0 && RunLength(s) < 2
    ensures Encode(s) == [LiteralHeader(LiteralLength(s))] + s[..LiteralLength(s)] + Encode(s[LiteralLength(s)..])
  {
  }

  lemma EncodeRepeatStep(s: seq<bv8>)
    requires |s| > 0 && RunLength(s) >= 2
    ensures Encode(s) == [RepeatHeader(RunLength(s)), s[0]] + Encode(s[RunLength(s)..])
  {
  }

  lemma DecodeRepeat(n: nat, b: bv8, tail: seq<bv8>, t: seq<bv8>)
    requires 2 <= n <= MaxRun
    requires Decode(tail) == Some(t)
    ensures Decode([RepeatHeader(n), b] + tail) == Some(Repeat(b, n) + t)
  {
    var e := [RepeatHeader(n), b] + tail;
    assert e[0] as nat == 257 - n;
    assert e[1] == b;
    assert e[2..] == tail;
  }

  lemma DecodeLiteral(lit: seq<bv8>, tail: seq<bv8>, t: seq<bv8>)
    requires 1 <= |lit| <= MaxRun
    requires Decode(tail) == Some(t)
    ensures Decode([LiteralHeader(|lit|)] + lit + tail) == Some(lit + t)
  {
    var e := [LiteralHeader(|lit|)] + lit + tail;
    assert e[0] as nat == |lit| - 1;
    assert e[1..|lit| + 1] == lit;
    assert e[|lit| + 1..] == tail;
  }

  /** A stretch of up to 128 bytes in which no byte equals its successor is
      packed as one literal: a header and the bytes themselves. */
  lemma LiteralOnly(s: seq<bv8>)
    requires 1 <= |s| <= MaxRun
    requires forall i :: 0 <= i < |s| - 1 ==> s[i] != s[i + 1]
    ensures Encode(s) == [(|s| - 1) as bv8] + s
  {
    if |s| > 1 {
      assert s[1] != s[0];
    }
    LiteralRunsToEnd(s, 1);
    WholeLiteral(s);
  }

  /** A literal stretch that covers all of `s` is packed alone. */
  lemma WholeLiteral(s: seq<bv8>)
    requires |s| > 0 && RunLength(s) < 2 && LiteralLength(s) == |s|
    ensures Encode(s) == [(|s| - 1) as bv8] + s
  {
    EncodeLiteralStep(s);
    assert s[..|s|] == s;
    assert s[|s|..] == [];
  }

  lemma {:induction false} LiteralRunsToEnd(s: seq<bv8>, k: nat)
    requires 1 <= k <= |s| <= MaxRun
    requires forall i :: 0 <= i < |s| - 1 ==> s[i] != s[i + 1]
    ensures LiteralFrom(s, k) == |s|
    decreases |s| - k
  {
    if k < |s| {
      if k + 1 < |s| {
        assert s[k] != s[k + 1];
      }
      LiteralRunsToEnd(s, k + 1);
    }
  }

  /** From 2 to 128 equal bytes are packed as one repeat: two bytes in all. */
  lemma RepeatOnly(b: bv8, n: nat)
    requires 2 <= n <= MaxRun
    ensures Encode(Repeat(b, n)) == [RepeatHeader(n), b]
  {
    var s := Repeat(b, n);
    RepeatRunsToEnd(s, 1);
    assert s[n..] == [];
  }

  lemma {:induction false} RepeatRunsToEnd(s: seq<bv8>, k: nat)
    requires 1 <= k <= |s| <= MaxRun
    requires forall i :: 0 <= i < |s| ==> s[i] == s[0]
    ensures RunFrom(s, k) == |s|
    decreases |s| - k
  {
    if k < |s| {
      RepeatRunsToEnd(s, k + 1);
    }
  }
}

=== FILE: page.dfy ===
/** A page: a packed 1-bit raster, `length` raster lines of `width` dots each,
    every line padded to whole bytes. Pages are handed to a job as finished
    byte buffers; how they are rendered is not part of this model. */
module Pages {
  import opened Results
  import opened Constants

  /** Width and length are plain integers: the constructor only checks the
      size equation, which some negative pairs also satisfy. */
  datatype Page = Page(bitmap: seq<bv8>, width: int, length: int, resolution: Resolution)

  datatype PageError =
    | MalformedBitmap  // the bitmap does not hold `length` lines of `width` dots
    | ZeroLineWidth    // a page `width` dots wide with zero bytes per line cannot be split into lines

  /** Bytes one raster line of `width` dots takes: `width / 8` rounded up, for
      negative widths too. */
  function BytesPerLine(width: int): (n: int)
    ensures 8 * n >= width
    ensures 8 * (n - 1) < width
  {
    (width + 7) / 8
  }

  /** The size invariant the page constructor asserts. */
  predicate WellSized(p: Page) {
    BytesPerLine(p.width) * p.length == |p.bitmap|
  }

  /** `Page(bitmap, width, length, resolution=LOW)`; the constructor refuses a
      bitmap of the wrong size, and otherwise keeps its arguments unchanged. */
  function NewPage(bitmap: seq<bv8>, width: int, length: int, resolution: Resolution := Low)
    : (r: Result<Page, PageError>)
    ensures r.Ok? <==> BytesPerLine(width) * length == |bitmap|
    ensures r.Ok? ==> WellSized(r.value)
    ensures r.Ok? ==>
      && r.value.bitmap == bitmap && r.value.width == width
      && r.value.length == length && r.value.resolution == resolution
  {
    if BytesPerLine(width) * length == |bitmap| then Ok(Page(bitmap, width, length, resolution))
    else Err(MalformedBitmap)
  }

  /** Consecutive pieces of `k` elements; the last may be shorter. */
  function Chunks<T>(s: seq<T>, k: nat): (r: seq<seq<T>>)
    requires k > 0
    ensures forall i :: 0 <= i < |r| ==> 0 < |r[i]| <= k
    decreases |s|
  {
    if s == [] then []
    else if |s| <= k then [s]
    else [s[..k]] + Chunks(s[k..], k)
  }

  function Flatten<T>(ss: seq<seq<T>>): seq<T>
    decreases |ss|
  {
    if ss == [] then [] else ss[0] + Flatten(ss[1..])
  }

  /** Cutting into pieces and gluing them back together loses nothing. */
  lemma {:induction false} FlattenChunks<T>(s: seq<T>, k: nat)
    requires k > 0
    ensures Flatten(Chunks(s, k)) == s
    decreases |s|
  {
    if s != [] && |s| > k {
      FlattenChunks(s[k..], k);
      var c := Chunks(s, k);
      assert c[0] == s[..k];
      assert c[1..] == Chunks(s[k..], k);
      assert s[..k] + s[k..] == s;
    }
  }

  /** When `s` holds exactly `n` pieces of `k`, there are `n` pieces and piece
      `i` is the `k` elements from `i*k` on. */
  lemma ChunksOfMultiple<T>(s: seq<T>, k: nat, n: nat)
    requires k > 0 && |s| == k * n
    ensures |Chunks(s, k)| == n
    ensures forall i :: 0 <= i < n ==> i * k + k <= |s| && Chunks(s, k)[i] == s[i * k .. i * k + k]
  {
    ChunkCount(s, k, n);
    forall i | 0 <= i < n
      ensures i * k + k <= |s| && Chunks(s, k)[i] == s[i * k .. i * k + k]
    {
      MulStep(i, k);
      MulMonotonic(i + 1, n, k);
      assert k * n == n * k;
      ChunkAt(s, k, i, i * k);
    }
  }

  /** A sequence of `n` pieces of `k` is cut into `n` pieces. */
  lemma {:induction false} ChunkCount<T>(s: seq<T>, k: nat, n: nat)
    requires k > 0 && |s| == k * n
    ensures |Chunks(s, k)| == n
    decreases n
  {
    if n > 1 {
      assert k * n == k * (n - 1) + k;
      ChunkCount(s[k..], k, n - 1);
    }
  }

  /** Piece `i` starts at `lo == i * k`, and is whole when `k` elements
      follow `lo`. */
  lemma {:induction false} ChunkAt<T>(s: seq<T>, k: nat, i: nat, lo: nat)
    requires k > 0 && lo == i * k && lo + k <= |s|
    ensures i < |Chunks(s, k)| && Chunks(s, k)[i] == s[lo .. lo + k]
    decreases i
  {
    if i > 0 {
      MulStep(i - 1, k);
      ChunkAt(s[k..], k, i - 1, lo - k);
      SliceOfDrop(s, k, lo - k, lo);
    }
  }

  lemma MulStep(i: nat, k: nat)
    ensures i * k + k == (i + 1) * k
  {
  }

  lemma MulMonotonic(a: nat, b: nat, k: nat)
    requires a <= b
    ensures a * k <= b * k
  {
  }

  lemma SliceOfDrop<T>(s: seq<T>, k: nat, lo: nat, hi: nat)
    requires k <= |s| && lo <= hi <= |s| - k
    ensures s[k..][lo .. hi] == s[lo + k .. hi + k]
  {
  }

  /** Iterating a page: consecutive slices of `BytesPerLine(width)` bytes,
      taken at `range(0, len(bitmap), step)`. A zero step fails; a negative
      step yields no lines at all. */
  function Lines(p: Page): (r: Result<seq<seq<bv8>>, PageError>)
    ensures r.Err? <==> BytesPerLine(p.width) == 0
    ensures BytesPerLine(p.width) < 0 ==> r == Ok([])
    ensures BytesPerLine(p.width) > 0 ==> r.Ok? && Flatten(r.value) == p.bitmap
    ensures r.Ok? ==> forall i :: 0 <= i < |r.value| ==> 0 < |r.value[i]| <= BytesPerLine(p.width)
  {
    var k := BytesPerLine(p.width);
    if k == 0 then Err(ZeroLineWidth)
    else if k < 0 then Ok([])
    else
      FlattenChunks(p.bitmap, k);
      Ok(Chunks(p.bitmap, k))
  }

  /** The sign of the slicing step: zero for widths -7 to 0, negative below
      that, positive for a positive width. */
  lemma StepSign(width: int)
    ensures BytesPerLine(width) == 0 <==> -8 < width <= 0
    ensures BytesPerLine(width) < 0 <==> width <= -8
    ensures BytesPerLine(width) > 0 <==> width > 0
  {
  }

  /** A well-sized page of positive width yields exactly `length` lines, line
      `i` being the `i`-th run of `BytesPerLine(width)` bytes. */
  lemma WellSizedLines(p: Page)
    requires WellSized(p) && p.width > 0
    ensures Lines(p).Ok? && |Lines(p).value| == p.length
    ensures forall i :: 0 <= i < p.length ==>
      var k := BytesPerLine(p.width);
      i * k + k <= |p.bitmap| && Lines(p).value[i] == p.bitmap[i * k .. i * k + k]
  {
    ChunksOfMultiple(p.bitmap, BytesPerLine(p.width), p.length);
  }

  /** The size check alone lets negative dimensions through: nine dots
      backwards make -1 bytes per line, and -2 such lines make two bytes; a
      page -3 dots wide has zero bytes per line, so any length fits an empty
      bitmap. The first page yields no lines, the second cannot be iterated. */
  lemma NegativeDimensions()
    ensures NewPage([1, 2], -9, -2).Ok?
    ensures Lines(NewPage([1, 2], -9, -2).value) == Ok([])
    ensures NewPage([], -3, 7).Ok?
    ensures Lines(NewPage([], -3, 7).value) == Err(ZeroLineWidth)
  {
  }
}

=== FILE: printer_models.dfy ===
/** The supported printer models: the printer classes with the capability
    attributes they inherit or override, the enumeration of model names, and
    the case-insensitive lookup of a model by name. */
module PrinterModels {
  import opened Results
  import opened Constants

  /** What a printer class lets a job ask for. */
  datatype Capabilities = Capabilities(resolutions: set<Resolution>, halfCut: bool)

  /** The class attributes of the generic printer every model derives from. */
  const GenericCapabilities: Capabilities := Capabilities({Low, High}, true)

  /** The printer classes. E500 derives from H500 and E550W from P750W; the
      others derive from the generic printer directly. */
  datatype PrinterClass = P700 | P750W | P2730 | H500 | E500 | E550W {

    function Base(): Option<PrinterClass> {
      match this
      case E500 => Some(H500)
      case E550W => Some(P750W)
      case _ => None
    }

    /** Number of model classes between this class and the generic printer. */
    function Depth(): nat {
      if Base().None? then 0 else 1
    }

    /** Capability attributes set in the class body itself. */
    function Overrides(): Option<Capabilities> {
      if this == H500 then Some(Capabilities({Low}, false)) else None
    }

    /** Attribute lookup as Python does it: the class's own setting, else the
        base class's, else the generic printer's. */
    function Caps(): Capabilities
      decreases Depth()
    {
      if Overrides().Some? then Overrides().value
      else if Base().Some? then
        assert Base().value.Base().None?;
        Base().value.Caps()
      else GenericCapabilities
    }
  }

  /** The H500 and E500 print at low resolution only and cannot half-cut;
      every other model prints at both resolutions and half-cuts. */
  lemma CapabilityTable(c: PrinterClass)
    ensures c == H500 || c == E500 ==> c.Caps() == Capabilities({Low}, false)
    ensures c != H500 && c != E500 ==> c.Caps() == Capabilities({Low, High}, true)
    ensures Low in c.Caps().resolutions
  {
  }

  /** The enumeration of printer models, in declaration order. */
  datatype Printer = Ptp700 | Ptp750W | Ptp2730 | PtpH500 | PtpE500 | PtpE550W {

    function Name(): string {
      match this
      case Ptp700 => "PTP_700"
      case Ptp750W => "PTP_750W"
      case Ptp2730 => "PTP_2730"
      case PtpH500 => "PTP_H500"
      case PtpE500 => "PTP_E500"
      case PtpE550W => "PTP_E550W"
    }

    /** The `printer` property: the class that drives this model. */
    function Class(): PrinterClass {
      match this
      case Ptp700 => P700
      case Ptp750W => P750W
      case Ptp2730 => P2730
      case PtpH500 => H500
      case PtpE500 => E500
      case PtpE550W => E550W
    }
  }

  const AllPrinters: seq<Printer> := [Ptp700, Ptp750W, Ptp2730, PtpH500, PtpE500, PtpE550W]

  /** Every model maps to its own class: the mapping is total and one to one. */
  lemma ClassTotal(p: Printer, q: Printer)
    ensures p in AllPrinters
    ensures p.Class() == q.Class() ==> p == q
  {
  }

  function LowerChar(c: char): char {
    if 'A' <= c <= 'Z' then (c as int + 32) as char else c
  }

  /** Lower-casing of ASCII letters; other characters are kept. */
  function Lower(s: string): (r: string)
    ensures |r| == |s|
    ensures forall i :: 0 <= i < |s| ==> r[i] == LowerChar(s[i])
  {
    seq(|s|, i requires 0 <= i < |s| => LowerChar(s[i]))
  }

  /** The first model of `ps` whose lower-cased name is `name` lower-cased. */
  function Find(name: string, ps: seq<Printer>): (r: Option<Printer>)
    ensures r.Some? ==> r.value in ps && Lower(r.value.Name()) == Lower(name)
    ensures r.None? ==> forall i :: 0 <= i < |ps| ==> Lower(ps[i].Name()) != Lower(name)
    decreases |ps|
  {
    if ps == [] then None
    else if Lower(ps[0].Name()) == Lower(name) then Some(ps[0])
    else Find(name, ps[1..])
  }

  /** `Printer.get`; `None` where the library raises for an unknown name. */
  function Get(name: string): (r: Option<Printer>)
    ensures r.Some? ==> Lower(r.value.Name()) == Lower(name)
    ensures r.None? ==> forall i :: 0 <= i < |AllPrinters| ==> Lower(AllPrinters[i].Name()) != Lower(name)
  {
    Find(name, AllPrinters)
  }

  /** The model names with their letters lower-cased. */
  function LoweredName(p: Printer): string {
    match p
    case Ptp700 => "ptp_700"
    case Ptp750W => "ptp_750w"
    case Ptp2730 => "ptp_2730"
    case PtpH500 => "ptp_h500"
    case PtpE500 => "ptp_e500"
    case PtpE550W => "ptp_e550w"
  }

  lemma LowerName(p: Printer)
    ensures Lower(p.Name()) == LoweredName(p)
  {
    var a := Lower(p.Name());
    assert |a| == |LoweredName(p)|;
    forall i | 0 <= i < |a|
      ensures a[i] == LoweredName(p)[i]
    {
    }
  }

  /** No two model names are equal once lower-cased. */
  lemma LoweredNamesDistinct(p: Printer, q: Printer)
    requires p != q
    ensures Lower(p.Name()) != Lower(q.Name())
  {
    LowerName(p);
    LowerName(q);
  }

  /** A model is found exactly when its lower-cased name is the lower-cased
      query, and an unknown name finds nothing. */
  lemma GetIff(name: string, p: Printer)
    ensures Get(name) == Some(p) <==> Lower(p.Name()) == Lower(name)
    ensures Get(name).None? <==> forall q: Printer :: Lower(q.Name()) != Lower(name)
  {
    if Lower(p.Name()) == Lower(name) && Get(name) != Some(p) {
      assert p in AllPrinters;
      var q := Get(name).value;
      LoweredNamesDistinct(p, q);
    }
    if Get(name).None? {
      forall q: Printer
        ensures Lower(q.Name()) != Lower(name)
      {
        ClassTotal(q, q);
        var i :| 0 <= i < |AllPrinters| && AllPrinters[i] == q;
      }
    }
  }

  /** The lookup ignores case: queries that agree once lower-cased find the
      same model. */
  lemma GetIgnoresCase(a: string, b: string)
    requires Lower(a) == Lower(b)
    ensures Get(a) == Get(b)
  {
  }

  lemma GetExamples()
    ensures Get("PTP_H500") == Some(PtpH500)
    ensures Get("ptp_e550w") == Some(PtpE550W)
    ensures Get("Ptp_750W") == Some(Ptp750W)
  {
    LowerName(PtpH500);
    LowerName(PtpE550W);
    LowerName(Ptp750W);
    assert Lower("PTP_H500") == "ptp_h500";
    assert Lower("ptp_e550w") == "ptp_e550w";
    assert Lower("Ptp_750W") == "ptp_750w";
    GetIff("PTP_H500", PtpH500);
    GetIff("ptp_e550w", PtpE550W);
    GetIff("Ptp_750W", Ptp750W);
  }

  /** A name that is not a model name, such as the bare class name, finds
      nothing. */
  lemma GetUnknown()
    ensures Get("P700").None?
  {
    forall q: Printer
      ensures Lower(q.Name()) != Lower("P700")
    {
      assert |q.Name()| != 4;
    }
    GetIff("P700", Ptp700);
  }
}

=== FILE: protocol.dfy ===
/** The protocol engine: the byte stream a printer is sent for a job, and the
    status request. Both revisions of the engine are modelled; they differ in
    the media check, the second print-information command and the cut-each
    command.

    A run is the ordered list of backend writes together with the failure
    that stopped it, if any: writes issued before a failure stay issued. */
module Protocol {
  import opened Results
  import opened Bytes
  import opened ByteValues
  import opened Constants
  import opened CodeTables
  import opened Pages
  import opened Jobs
  import PrinterModels
  import LineEncoder
  import RasterLines
  import StatusPacket
  import opened WriteCounts

  /** `Package` is the engine of the `printers` package, `Legacy` the engine
      of the older single-module revision. */
  datatype Revision = Package | Legacy

  // Commands of the raster protocol.
  const Invalidate: seq<bv8> := Zeros(100)
  const Initialize: seq<bv8> := [0x1B, 0x40]
  const StatusRequest: seq<bv8> := [0x1B, 0x69, 0x53]
  const RasterMode: seq<bv8> := [0x1B, 0x69, 0x61, 0x01]
  const Compression: seq<bv8> := [0x4D, 0x02]
  const EndOfPage: seq<bv8> := [0x5A]
  const FormFeed: seq<bv8> := [0x0C]
  const Eject: seq<bv8> := [0x1A]

  function PrintInfo(mediaType: bv8, width: bv8): seq<bv8> {
    [0x1B, 0x69, 0x7A, 0x86, mediaType, width, 0, 0, 0, 0, 0, 0]
  }

  function VariousModeCommand(b: bv8): seq<bv8> {
    [0x1B, 0x69, 0x4D, b]
  }

  function AdvancedModeCommand(b: bv8): seq<bv8> {
    [0x1B, 0x69, 0x4B, b]
  }

  function MarginCommand(margin: seq<bv8>): seq<bv8> {
    [0x1B, 0x69, 0x64] + margin
  }

  function CutEachCommand(n: bv8): seq<bv8> {
    [0x1B, 0x69, 0x41, n]
  }

  /** `reset`: the invalidate command, then the initialise command. */
  const ResetWrites: seq<seq<bv8>> := [Invalidate, Initialize]

  datatype PrintError =
    | UnsupportedMedia       // the job is for the no-media sentinel or an incompatible tape
    | UnsupportedResolution  // the printer class does not offer the job's resolution
    | MissingMedia           // the job has no media type or no media size
    | HalfCutUnsupported     // half-cut asked of a printer class without it
    | CutEachOverflow        // `cut_each` does not fit in one byte
    | BadPage(problem: PageError)              // a page cannot be split into lines
    | BadLine(cause: RasterLines.LineFailure)  // a line of a page cannot be encoded
    | UndefinedName          // the name `logging` is used without being imported

  datatype Run = Run(writes: seq<seq<bv8>>, failure: Option<PrintError>)

  /** The bytes and shift computed once per job before the pages are sent. */
  datatype Settings = Settings(
    mediaType: bv8,
    width: bv8,
    offset: Option<nat>,
    various: bv8,
    advanced: bv8,
    margin: seq<bv8>,
    cutEach: bv8)

  /** The media the package revision refuses: the no-media sentinel and an
      incompatible tape. */
  predicate RejectedMedia(job: Job) {
    || job.mediaSize == Some(MediaSize.NoMedia)
    || job.mediaType == Some(MediaType.NoMedia)
    || job.mediaType == Some(IncompatibleTape)
  }

  /** The various-mode byte: the auto-cut and mirror bits, as the job asks. */
  function VariousModeByte(job: Job): (b: bv8)
    ensures b & AutoCut.Bit() != 0 <==> job.autoCut
    ensures b & MirrorPrinting.Bit() != 0 <==> job.mirrorPrinting
    ensures b & !(AutoCut.Bit() | MirrorPrinting.Bit()) == 0
  {
    (if job.autoCut then AutoCut.Bit() else 0) | (if job.mirrorPrinting then MirrorPrinting.Bit() else 0)
  }

  /** The advanced-mode byte. The chain-printing bit is set when chain
      printing is off, and the high-resolution bit at high resolution. */
  function AdvancedModeByte(job: Job): (b: bv8)
    ensures b & HalfCut.Bit() != 0 <==> job.halfCut
    ensures b & ChainPrinting.Bit() != 0 <==> !job.chain
    ensures b & SpecialTape.Bit() != 0 <==> job.specialTape
    ensures b & HighResolution.Bit() != 0 <==> job.resolution == High
    ensures b & BufferClearing.Bit() == 0
    ensures b & !(HalfCut.Bit() | ChainPrinting.Bit() | SpecialTape.Bit() | HighResolution.Bit()) == 0
  {
    (if job.halfCut then HalfCut.Bit() else 0)
    | (if !job.chain then ChainPrinting.Bit() else 0)
    | (if job.specialTape then SpecialTape.Bit() else 0)
    | (if job.resolution == High then HighResolution.Bit() else 0)
  }

  /** The margin argument: 28 dots at high resolution, 14 at low. */
  function MarginBytes(r: Resolution): (m: seq<bv8>)
    ensures |m| == 2 && m[1] == 0
    ensures m[0] as nat == 14 * (if r == High then 2 else 1)
  {
    if r == High then [0x1C, 0x00] else [0x0E, 0x00]
  }

  /** The checks and conversions that precede the first page, in the order
      `print` runs them; both revisions reset the printer before any of them. */
  function Prepare(rev: Revision, caps: PrinterModels.Capabilities, job: Job): (r: Result<Settings, PrintError>)
    ensures r.Ok? <==>
      && !(rev.Package? && RejectedMedia(job))
      && job.resolution in caps.resolutions
      && job.mediaType.Some? && job.mediaSize.Some?
      && !(job.halfCut && !caps.halfCut)
      && 0 <= job.cutEach < 256
    ensures r == Err(UnsupportedMedia) <==> rev.Package? && RejectedMedia(job)
    ensures r == Err(UnsupportedResolution) ==> job.resolution !in caps.resolutions
    ensures r == Err(HalfCutUnsupported) ==> job.halfCut && !caps.halfCut
    ensures r.Ok? ==>
      && r.value.mediaType == job.mediaType.value.Value()
      && r.value.width as nat == job.mediaSize.value.Info().width
      && r.value.offset == job.mediaSize.value.Info().leftMargin
      && r.value.various == VariousModeByte(job)
      && r.value.advanced == AdvancedModeByte(job)
      && r.value.margin == MarginBytes(job.resolution)
      && r.value.cutEach as int == job.cutEach
  {
    if rev.Package? && RejectedMedia(job) then Err(UnsupportedMedia)
    else if job.resolution !in caps.resolutions then Err(UnsupportedResolution)
    else if job.mediaType.None? || job.mediaSize.None? then Err(MissingMedia)
    else if job.halfCut && !caps.halfCut then Err(HalfCutUnsupported)
    else if !(0 <= job.cutEach < 256) then Err(CutEachOverflow)
    else
      var info := job.mediaSize.value.Info();
      ByteOfNat(info.width);
      ByteOfNat(job.cutEach);
      Ok(Settings(job.mediaType.value.Value(), info.width as bv8, info.leftMargin,
                  VariousModeByte(job), AdvancedModeByte(job), MarginBytes(job.resolution),
                  job.cutEach as bv8))
  }

  /** Page `i` is preceded by a second print-information command: in the
      package revision on the first page when auto-cut is on, in the legacy
      revision on the first page always. */
  predicate SecondInfo(rev: Revision, job: Job, i: nat) {
    i == 0 && (rev.Legacy? || job.autoCut)
  }

  /** The cut-each command is sent: in the package revision when auto-cut is
      on, in the legacy revision always. */
  predicate CutEachSent(rev: Revision, job: Job) {
    rev.Legacy? || job.autoCut
  }

  /** The commands that open page `i`, up to and including compression. */
  function PageHeader(rev: Revision, s: Settings, job: Job, i: nat): seq<seq<bv8>> {
    var info := PrintInfo(s.mediaType, s.width);
    [RasterMode, info]
    + (if SecondInfo(rev, job, i) then [info] else [])
    + [VariousModeCommand(s.various), AdvancedModeCommand(s.advanced), MarginCommand(s.margin)]
    + (if CutEachSent(rev, job) then [CutEachCommand(s.cutEach)] else [])
    + [Compression]
  }

  /** Page `i` of the job: its header, its lines, end of page, and a form
      feed unless it is the last page. */
  function PageRun(rev: Revision, s: Settings, job: Job, i: nat): (r: Run)
    requires i < |job.pages|
    ensures r.failure.Some? ==> r.failure.value.BadPage? || r.failure.value.BadLine?
  {
    var header := PageHeader(rev, s, job, i);
    match Lines(job.pages[i])
    case Err(e) => Run(header, Some(BadPage(e)))
    case Ok(lines) =>
      var body := RasterLines.LineWrites(lines, s.offset);
      if body.failure.Some? then Run(header + body.writes, Some(BadLine(body.failure.value)))
      else Run(header + body.writes + [EndOfPage] + (if i < |job.pages| - 1 then [FormFeed] else []), None)
  }

  /** The writes of page `i` once its lines are known: header, one raster
      line command per line in order, end of page, and a form feed unless
      it is the last page. */
  lemma PageStructure(rev: Revision, s: Settings, job: Job, i: nat)
    requires i < |job.pages| && PageRun(rev, s, job, i).failure.None?
    ensures Lines(job.pages[i]).Ok?
    ensures
      var lines := Lines(job.pages[i]).value;
      var body := RasterLines.LineWrites(lines, s.offset).writes;
      && |body| == |lines|
      && (forall j :: 0 <= j < |lines| ==>
            s.offset.Some? && body[j] == RasterLines.RasterLine(LineEncoder.EncodeLine(lines[j], s.offset.value).value))
      && PageRun(rev, s, job, i).writes ==
           PageHeader(rev, s, job, i) + body + [EndOfPage] + (if i < |job.pages| - 1 then [FormFeed] else [])
  {
  }

  /** No raster-line command equals a command that does not start with `47`:
      every raster line does. */
  lemma RasterLinesAreDistinct(lines: seq<seq<bv8>>, offset: Option<nat>, w: seq<bv8>)
    requires |w| > 0 && w[0] != 0x47
    ensures Count(RasterLines.LineWrites(lines, offset).writes, w) == 0
  {
    RasterLines.WritesAreRasterLines(lines, offset);
    NotAmong(RasterLines.LineWrites(lines, offset).writes, w);
  }

  lemma NotAmong(ws: seq<seq<bv8>>, w: seq<bv8>)
    requires |w| > 0 && w[0] != 0x47
    requires forall j :: 0 <= j < |ws| ==> |ws[j]| > 0 && ws[j][0] == 0x47
    ensures Count(ws, w) == 0
  {
    assert w !in ws;
    CountAbsent(ws, w);
  }

  /** The one-byte commands differ from each other and from the commands
      that take arguments. */
  lemma CommandsDistinct(s: Settings)
    ensures Eject != EndOfPage && Eject != FormFeed && EndOfPage != FormFeed
    ensures PrintInfo(s.mediaType, s.width) !in {Eject, EndOfPage, FormFeed, CutEachCommand(s.cutEach)}
    ensures CutEachCommand(s.cutEach) !in {Eject, EndOfPage, FormFeed}
    ensures Invalidate !in {Eject, EndOfPage, FormFeed, PrintInfo(s.mediaType, s.width), CutEachCommand(s.cutEach)}
    ensures Initialize !in {Eject, EndOfPage, FormFeed, PrintInfo(s.mediaType, s.width), CutEachCommand(s.cutEach)}
  {
    assert Eject[0] == 0x1A && EndOfPage[0] == 0x5A && FormFeed[0] == 0x0C;
    assert CutEachCommand(s.cutEach)[2] == 0x41;
    assert |Invalidate| == 100 && |Initialize| == 2;
  }

  /** The print-information and cut-each commands occur in a page header as
      the revision asks; no form feed, end of page or eject does. */
  lemma HeaderCounts(rev: Revision, s: Settings, job: Job, i: nat)
    ensures Count(PageHeader(rev, s, job, i), PrintInfo(s.mediaType, s.width)) == if SecondInfo(rev, job, i) then 2 else 1
    ensures Count(PageHeader(rev, s, job, i), CutEachCommand(s.cutEach)) == if CutEachSent(rev, job) then 1 else 0
    ensures Count(PageHeader(rev, s, job, i), FormFeed) == 0
    ensures Count(PageHeader(rev, s, job, i), EndOfPage) == 0
    ensures Count(PageHeader(rev, s, job, i), Eject) == 0
  {
    var c := [VariousModeCommand(s.various), AdvancedModeCommand(s.advanced), MarginCommand(s.margin)];
    CommandsDistinct(s);
    HeaderPiecesDistinct(s, c);
    HeaderCountOf(rev, s, job, i, PrintInfo(s.mediaType, s.width));
    HeaderCountOf(rev, s, job, i, CutEachCommand(s.cutEach));
    HeaderCountOf(rev, s, job, i, FormFeed);
    HeaderCountOf(rev, s, job, i, EndOfPage);
    HeaderCountOf(rev, s, job, i, Eject);
  }

  /** A page header counted piece by piece, for a command that is none of
      the mode and margin commands. */
  lemma HeaderCountOf(rev: Revision, s: Settings, job: Job, i: nat, w: seq<bv8>)
    requires Count([VariousModeCommand(s.various), AdvancedModeCommand(s.advanced), MarginCommand(s.margin)], w) == 0
    ensures Count(PageHeader(rev, s, job, i), w) ==
      (if RasterMode == w then 1 else 0)
      + (if PrintInfo(s.mediaType, s.width) == w then 1 else 0)
      + (if SecondInfo(rev, job, i) && PrintInfo(s.mediaType, s.width) == w then 1 else 0)
      + (if CutEachSent(rev, job) && CutEachCommand(s.cutEach) == w then 1 else 0)
      + (if Compression == w then 1 else 0)
  {
    var info := PrintInfo(s.mediaType, s.width);
    var a := [RasterMode, info];
    var b := if SecondInfo(rev, job, i) then [info] else [];
    var c := [VariousModeCommand(s.various), AdvancedModeCommand(s.advanced), MarginCommand(s.margin)];
    var d := if CutEachSent(rev, job) then [CutEachCommand(s.cutEach)] else [];
    var e := [Compression];
    var h := PageHeader(rev, s, job, i);
    assert h == a + b + c + d + e;
    CountSplit(h, a + b + c + d, e, w);
    CountSplit(a + b + c + d, a + b + c, d, w);
    CountSplit(a + b + c, a + b, c, w);
    CountSplit(a + b, a, b, w);
    CountPair(RasterMode, info, w);
    CountOptional(SecondInfo(rev, job, i), info, w);
    CountOptional(CutEachSent(rev, job), CutEachCommand(s.cutEach), w);
    CountSingle(Compression, w);
  }

  /** None of the mode and margin commands is a counted command. */
  lemma HeaderPiecesDistinct(s: Settings, c: seq<seq<bv8>>)
    requires c == [VariousModeCommand(s.various), AdvancedModeCommand(s.advanced), MarginCommand(s.margin)]
    ensures Count(c, PrintInfo(s.mediaType, s.width)) == 0 && Count(c, CutEachCommand(s.cutEach)) == 0
    ensures Count(c, FormFeed) == 0 && Count(c, EndOfPage) == 0 && Count(c, Eject) == 0
    ensures RasterMode !in {PrintInfo(s.mediaType, s.width), CutEachCommand(s.cutEach), FormFeed, EndOfPage, Eject}
    ensures Compression !in {PrintInfo(s.mediaType, s.width), CutEachCommand(s.cutEach), FormFeed, EndOfPage, Eject}
  {
    assert c[0][2] == 0x4D && c[1][2] == 0x4B && c[2][2] == 0x64;
    assert RasterMode[2] == 0x61 && |Compression| == 2 && Compression[0] == 0x4D;
    assert PrintInfo(s.mediaType, s.width)[2] == 0x7A && CutEachCommand(s.cutEach)[2] == 0x41;
    CountAbsent(c, PrintInfo(s.mediaType, s.width));
    CountAbsent(c, CutEachCommand(s.cutEach));
    CountAbsent(c, FormFeed);
    CountAbsent(c, EndOfPage);
    CountAbsent(c, Eject);
  }

  /** How often each counted command occurs in the writes of a page that
      succeeds. */
  lemma PageCounts(rev: Revision, s: Settings, job: Job, i: nat)
    requires i < |job.pages| && PageRun(rev, s, job, i).failure.None?
    ensures Count(PageRun(rev, s, job, i).writes, PrintInfo(s.mediaType, s.width)) == if SecondInfo(rev, job, i) then 2 else 1
    ensures Count(PageRun(rev, s, job, i).writes, CutEachCommand(s.cutEach)) == if CutEachSent(rev, job) then 1 else 0
    ensures Count(PageRun(rev, s, job, i).writes, FormFeed) == if i < |job.pages| - 1 then 1 else 0
    ensures Count(PageRun(rev, s, job, i).writes, EndOfPage) == 1
    ensures Count(PageRun(rev, s, job, i).writes, Eject) == 0
  {
    HeaderCounts(rev, s, job, i);
    CommandsDistinct(s);
    assert PrintInfo(s.mediaType, s.width)[0] == 0x1B && CutEachCommand(s.cutEach)[0] == 0x1B;
    PageCountOf(rev, s, job, i, PrintInfo(s.mediaType, s.width));
    PageCountOf(rev, s, job, i, CutEachCommand(s.cutEach));
    PageCountOf(rev, s, job, i, FormFeed);
    PageCountOf(rev, s, job, i, EndOfPage);
    PageCountOf(rev, s, job, i, Eject);
  }

  lemma PageWritesSplit(rev: Revision, s: Settings, job: Job, i: nat)
    requires i < |job.pages| && PageRun(rev, s, job, i).failure.None?
    ensures Lines(job.pages[i]).Ok?
    ensures PageRun(rev, s, job, i).writes ==
      PageHeader(rev, s, job, i) + RasterLines.LineWrites(Lines(job.pages[i]).value, s.offset).writes
      + ([EndOfPage] + (if i < |job.pages| - 1 then [FormFeed] else []))
  {
  }

  /** The writes of a page counted piece by piece, for a command that is not
      a raster line: the header's, then the end of page and the form feed. */
  lemma PageCountOf(rev: Revision, s: Settings, job: Job, i: nat, w: seq<bv8>)
    requires i < |job.pages| && PageRun(rev, s, job, i).failure.None?
    requires |w| > 0 && w[0] != 0x47
    ensures Count(PageRun(rev, s, job, i).writes, w) ==
      Count(PageHeader(rev, s, job, i), w)
      + (if EndOfPage == w then 1 else 0)
      + (if i < |job.pages| - 1 && FormFeed == w then 1 else 0)
  {
    PageWritesSplit(rev, s, job, i);
    var lines := Lines(job.pages[i]).value;
    var h := PageHeader(rev, s, job, i);
    var body := RasterLines.LineWrites(lines, s.offset).writes;
    var more := if i < |job.pages| - 1 then [FormFeed] else [];
    var tail := [EndOfPage] + more;
    RasterLinesAreDistinct(lines, s.offset, w);
    CountSplit(PageRun(rev, s, job, i).writes, h + body, tail, w);
    CountSplit(h + body, h, body, w);
    CountSplit(tail, [EndOfPage], more, w);
    CountSingle(EndOfPage, w);
    CountOptional(i < |job.pages| - 1, FormFeed, w);
  }

  /** No page from `i` on fails to be sent. */
  predicate NoPageFails(rev: Revision, s: Settings, job: Job, i: nat)
    requires i <= |job.pages|
    decreases |job.pages| - i
  {
    i == |job.pages| || (PageRun(rev, s, job, i).failure.None? && NoPageFails(rev, s, job, i + 1))
  }

  /** Pages `i` onwards, then the eject command; the first failing page
      ends the run. A run that succeeds ends with the eject command, which
      it holds once; it holds one end of page per page, one form feed per
      page but the last, the print-information command once per page and
      once more on the first page when the revision repeats it, and the
      cut-each command once per page when the revision sends it. */
  function PagesRun(rev: Revision, s: Settings, job: Job, i: nat): (r: Run)
    requires i <= |job.pages|
    ensures r.failure.None? ==> |r.writes| > 0 && r.writes[|r.writes| - 1] == Eject
    ensures r.failure.None? ==>
      && Count(r.writes, Eject) == 1
      && Count(r.writes, EndOfPage) == |job.pages| - i
      && Count(r.writes, FormFeed) == (if i < |job.pages| then |job.pages| - 1 - i else 0)
      && Count(r.writes, PrintInfo(s.mediaType, s.width)) ==
           (|job.pages| - i) + (if i < |job.pages| && SecondInfo(rev, job, i) then 1 else 0)
      && Count(r.writes, CutEachCommand(s.cutEach)) == (if CutEachSent(rev, job) then |job.pages| - i else 0)
    decreases |job.pages| - i
  {
    if i == |job.pages| then
      EjectCounts(s);
      Run([Eject], None)
    else
      var page := PageRun(rev, s, job, i);
      if page.failure.Some? then page
      else
        var rest := PagesRun(rev, s, job, i + 1);
        PageCounts(rev, s, job, i);
        SplitCounts(s, page.writes, rest.writes);
        Run(page.writes + rest.writes, rest.failure)
  }
  /** The run from page `i` succeeds exactly when no page from `i` on fails. */
  lemma {:induction false} PagesRunSucceeds(rev: Revision, s: Settings, job: Job, i: nat)
    requires i <= |job.pages|
    ensures PagesRun(rev, s, job, i).failure.None? <==> NoPageFails(rev, s, job, i)
    decreases |job.pages| - i
  {
    if i < |job.pages| {
      PagesRunSucceeds(rev, s, job, i + 1);
      PagesRunStep(rev, s, job, i);
    }
  }

  /** A page that fails ends the run; a page that succeeds hands the run on
      to the next page. */
  lemma PagesRunStep(rev: Revision, s: Settings, job: Job, i: nat)
    requires i < |job.pages|
    ensures PageRun(rev, s, job, i).failure.Some? ==>
      PagesRun(rev, s, job, i).failure == PageRun(rev, s, job, i).failure
    ensures PageRun(rev, s, job, i).failure.None? ==>
      PagesRun(rev, s, job, i).failure == PagesRun(rev, s, job, i + 1).failure
  {
  }


  lemma EjectCounts(s: Settings)
    ensures Count([Eject], Eject) == 1
    ensures Count([Eject], EndOfPage) == 0 && Count([Eject], FormFeed) == 0
    ensures Count([Eject], PrintInfo(s.mediaType, s.width)) == 0 && Count([Eject], CutEachCommand(s.cutEach)) == 0
  {
    CommandsDistinct(s);
    CountSingle(Eject, Eject);
    CountSingle(Eject, EndOfPage);
    CountSingle(Eject, FormFeed);
    CountSingle(Eject, PrintInfo(s.mediaType, s.width));
    CountSingle(Eject, CutEachCommand(s.cutEach));
  }

  /** The counted commands of two runs in sequence add up. */
  lemma SplitCounts(s: Settings, a: seq<seq<bv8>>, b: seq<seq<bv8>>)
    ensures Count(a + b, Eject) == Count(a, Eject) + Count(b, Eject)
    ensures Count(a + b, EndOfPage) == Count(a, EndOfPage) + Count(b, EndOfPage)
    ensures Count(a + b, FormFeed) == Count(a, FormFeed) + Count(b, FormFeed)
    ensures Count(a + b, PrintInfo(s.mediaType, s.width)) ==
      Count(a, PrintInfo(s.mediaType, s.width)) + Count(b, PrintInfo(s.mediaType, s.width))
    ensures Count(a + b, CutEachCommand(s.cutEach)) ==
      Count(a, CutEachCommand(s.cutEach)) + Count(b, CutEachCommand(s.cutEach))
  {
    CountSplit(a + b, a, b, Eject);
    CountSplit(a + b, a, b, EndOfPage);
    CountSplit(a + b, a, b, FormFeed);
    CountSplit(a + b, a, b, PrintInfo(s.mediaType, s.width));
    CountSplit(a + b, a, b, CutEachCommand(s.cutEach));
  }

  /** `GenericPrinter.print` of the given revision on a printer class with
      the given capabilities. */
  function Print(rev: Revision, caps: PrinterModels.Capabilities, job: Job): (r: Run)
    ensures |r.writes| >= 2 && r.writes[..2] == ResetWrites
    ensures Prepare(rev, caps, job).Err? ==> r == Run(ResetWrites, Some(Prepare(rev, caps, job).error))
    ensures r.failure.None? ==> r.writes[|r.writes| - 1] == Eject
  {
    match Prepare(rev, caps, job)
    case Err(e) => Run(ResetWrites, Some(e))
    case Ok(s) =>
      var rest := PagesRun(rev, s, job, 0);
      Run(ResetWrites + rest.writes, rest.failure)
  }

  /** The package revision as written, once its media lookup (`job.media`,
      which `Job` lacks) is repaired as in `Prepare`: the first page's line
      loop, and the statement after it, log through the name `logging`, which
      that module never imports. The first page therefore stops with a name error, before
      its first raster line or, for a page without lines, after its end of
      page. */
  function PrintPackageAsWritten(caps: PrinterModels.Capabilities, job: Job): (r: Run)
    ensures |r.writes| >= 2 && r.writes[..2] == ResetWrites
    ensures job.pages != [] ==> r.failure.Some?
    ensures Prepare(Package, caps, job).Ok? && job.pages != [] && Lines(job.pages[0]).Ok? ==>
      r.failure == Some(UndefinedName)
  {
    match Prepare(Package, caps, job)
    case Err(e) => Run(ResetWrites, Some(e))
    case Ok(s) =>
      if job.pages == [] then Run(ResetWrites + [Eject], None)
      else
        var header := PageHeader(Package, s, job, 0);
        match Lines(job.pages[0])
        case Err(e) => Run(ResetWrites + header, Some(BadPage(e)))
        case Ok(lines) =>
          if lines != [] then Run(ResetWrites + header, Some(UndefinedName))
          else Run(ResetWrites + header + [EndOfPage], Some(UndefinedName))
  }

  /** How the printer's status can be read: not at all, by a write of the
      status request and a read of the reply, or by a side channel of the
      backend. A reply is `None` when the backend returns nothing. */
  datatype Backend =
    | WriteOnly
    | ReadWrite(reply: Option<seq<bv8>>)
    | SideChannel(channelReply: Option<seq<bv8>>)

  datatype StatusError =
    | Unidirectional                           // the backend cannot read
    | NoResponse                               // the backend returned no bytes
    | InvalidResponse                          // the reply is shorter than 32 bytes
    | Undecodable(cause: StatusPacket.DecodeError)  // the reply holds an unknown code

  datatype StatusRun = StatusRun(writes: seq<seq<bv8>>, result: Result<StatusPacket.Status, StatusError>)

  /** Bytes of a full status reply. */
  const ReplyLength: nat := 32

  /** The reply the backend yields, or the failure to obtain one. */
  function Reply(rev: Revision, backend: Backend): (r: Result<Option<seq<bv8>>, StatusError>)
    ensures r.Err? <==> backend.WriteOnly? || (rev.Legacy? && backend.SideChannel?)
  {
    match backend
    case WriteOnly => Err(Unidirectional)
    case ReadWrite(reply) => Ok(reply)
    case SideChannel(reply) => if rev.Package? then Ok(reply) else Err(Unidirectional)
  }

  /** The writes issued to obtain the reply: a reset and the status request
      when the reply is read back over the same connection. */
  function QueryWrites(backend: Backend): seq<seq<bv8>> {
    if backend.ReadWrite? then ResetWrites + [StatusRequest] else []
  }

  /** `get_status`: fetch the reply, refuse an empty or short one, decode the
      rest. */
  function GetStatus(rev: Revision, backend: Backend): (r: StatusRun)
    ensures r.writes == QueryWrites(backend)
    ensures r.result.Ok? ==>
      && Reply(rev, backend).Ok? && Reply(rev, backend).value.Some?
      && |Reply(rev, backend).value.value| >= ReplyLength
      && StatusPacket.Decode(Reply(rev, backend).value.value) == Ok(r.result.value)
  {
    var result :=
      match Reply(rev, backend)
      case Err(e) => Err(e)
      case Ok(None) => Err(NoResponse)
      case Ok(Some(data)) =>
        if |data| == 0 then Err(NoResponse)
        else if |data| < ReplyLength then Err(InvalidResponse)
        else StatusPacket.Decode(data).MapError(e => Undecodable(e));
    StatusRun(QueryWrites(backend), result)
  }
}

=== FILE: protocol_properties.dfy ===
/** What the write streams of the protocol engine are promised to look like:
    the reset that opens every run, the failures that stop a run before its
    first page, the commands each page contributes and how often, the eject
    that closes a job, the agreement of the two revisions, and the status
    request. */
module ProtocolProperties {
  import opened Results
  import opened Bytes
  import opened Constants
  import opened CodeTables
  import opened Pages
  import opened Jobs
  import PrinterModels
  import LineEncoder
  import RasterLines
  import StatusPacket
  import opened Protocol
  import opened WriteCounts

  // ---------------------------------------------------------------------
  // The reset and the checks before the first page

  /** Every run, failed or not, opens with the invalidate command (100 zero
      bytes) and the initialise command `1B 40`. */
  lemma StartsWithReset(rev: Revision, caps: PrinterModels.Capabilities, job: Job)
    ensures |Print(rev, caps, job).writes| >= 2
    ensures Print(rev, caps, job).writes[..2] == ResetWrites
    ensures Print(rev, caps, job).writes[0] == Zeros(100)
    ensures Print(rev, caps, job).writes[1] == [0x1B, 0x40]
  {
    var r := Print(rev, caps, job);
    assert r.writes[..2] == ResetWrites by {
      match Prepare(rev, caps, job)
      case Err(_) =>
      case Ok(s) =>
        assert r.writes == ResetWrites + PagesRun(rev, s, job, 0).writes;
    }
  }

  /** A job refused before its first page leaves exactly the reset writes and
      the reason. The reasons are, in this order: (package revision only) the
      no-media sentinel or an incompatible tape, a resolution the printer
      lacks, a missing media type or size, half-cut on a printer without it,
      and a `cut_each` that does not fit in a byte. */
  lemma RefusedBeforeFirstPage(rev: Revision, caps: PrinterModels.Capabilities, job: Job)
    requires
      || (rev.Package? && RejectedMedia(job))
      || job.resolution !in caps.resolutions
      || job.mediaType.None? || job.mediaSize.None?
      || (job.halfCut && !caps.halfCut)
      || !(0 <= job.cutEach < 256)
    ensures Print(rev, caps, job).writes == ResetWrites
    ensures Print(rev, caps, job).failure == Some(Prepare(rev, caps, job).error)
    ensures rev.Package? && RejectedMedia(job) ==> Print(rev, caps, job).failure == Some(UnsupportedMedia)
  {
  }

  /** The H500 and E500 refuse a high-resolution job and a half-cut job
      before the first page, after the reset. */
  lemma LowEndModelsRefuse(rev: Revision, c: PrinterModels.PrinterClass, job: Job)
    requires c == PrinterModels.H500 || c == PrinterModels.E500
    requires job.resolution == High || job.halfCut
    ensures Print(rev, c.Caps(), job).writes == ResetWrites
    ensures Print(rev, c.Caps(), job).failure.Some?
  {
    PrinterModels.CapabilityTable(c);
  }

  /** The legacy revision has no check for the no-media sentinel or the
      incompatible tape, so it never fails with `UnsupportedMedia`. Its other
      media failures remain: a missing media type or size, and a page on the
      sentinel, whose missing margin stops the first line. For a job without
      pages on the sentinel it prints where the package revision refuses. */
  lemma LegacyHasNoMediaCheck(caps: PrinterModels.Capabilities, job: Job)
    ensures Prepare(Legacy, caps, job) != Err(UnsupportedMedia)
    ensures job.pages == [] && job.mediaSize == Some(MediaSize.NoMedia) && Prepare(Legacy, caps, job).Ok? ==>
      && Print(Legacy, caps, job) == Run(ResetWrites + [Eject], None)
      && Print(Package, caps, job) == Run(ResetWrites, Some(UnsupportedMedia))
  {
  }
  /** What the legacy revision still refuses for its media: a job without a
      media type or size fails as missing media, and on the no-media sentinel
      the first page that has lines fails on its first line, which has no
      margin to be shifted by. */
  lemma LegacyMediaFailures(caps: PrinterModels.Capabilities, job: Job)
    ensures job.resolution in caps.resolutions && (job.mediaType.None? || job.mediaSize.None?) ==>
      Print(Legacy, caps, job).failure == Some(MissingMedia)
    ensures
      && Prepare(Legacy, caps, job).Ok? && job.mediaSize == Some(MediaSize.NoMedia)
      && |job.pages| > 0 && Lines(job.pages[0]).Ok? && Lines(job.pages[0]).value != [] ==>
      Print(Legacy, caps, job).failure == Some(BadLine(RasterLines.MarginUndefined))
  {
    if && Prepare(Legacy, caps, job).Ok? && job.mediaSize == Some(MediaSize.NoMedia)
       && |job.pages| > 0 && Lines(job.pages[0]).Ok? && Lines(job.pages[0]).value != []
    {
      var s := Prepare(Legacy, caps, job).value;
      assert s.offset.None?;
      assert PageRun(Legacy, s, job, 0).failure == Some(BadLine(RasterLines.MarginUndefined));
      PagesRunStep(Legacy, s, job, 0);
    }
  }


  // ---------------------------------------------------------------------
  // Pages

  /** A printed job: reset first, eject last; one end-of-page per page; one
      form feed between consecutive pages and none after the last; the
      print-information command once per page plus once more on the first
      page when the revision repeats it; the cut-each command once per page
      when the revision sends it, else never. */
  lemma PrintCounts(rev: Revision, caps: PrinterModels.Capabilities, job: Job)
    requires Print(rev, caps, job).failure.None?
    ensures Prepare(rev, caps, job).Ok?
    ensures
      var w := Print(rev, caps, job).writes;
      var s := Prepare(rev, caps, job).value;
      var n := |job.pages|;
      && |w| >= 3 && w[..2] == ResetWrites && w[|w| - 1] == Eject
      && Count(w, Eject) == 1
      && Count(w, EndOfPage) == n
      && Count(w, FormFeed) == (if n > 0 then n - 1 else 0)
      && Count(w, PrintInfo(s.mediaType, s.width)) == n + (if n > 0 && (rev.Legacy? || job.autoCut) then 1 else 0)
      && Count(w, CutEachCommand(s.cutEach)) == (if CutEachSent(rev, job) then n else 0)
  {
    var s := Prepare(rev, caps, job).value;
    var rest := PagesRun(rev, s, job, 0).writes;
    var w := Print(rev, caps, job).writes;
    SplitCounts(s, ResetWrites, rest);
    ResetCounts(s);
  }

  /** The reset writes hold none of the counted commands. */
  lemma ResetCounts(s: Settings)
    ensures Count(ResetWrites, Eject) == 0 && Count(ResetWrites, EndOfPage) == 0
    ensures Count(ResetWrites, FormFeed) == 0
    ensures Count(ResetWrites, PrintInfo(s.mediaType, s.width)) == 0
    ensures Count(ResetWrites, CutEachCommand(s.cutEach)) == 0
  {
    CommandsDistinct(s);
    CountPair(Invalidate, Initialize, Eject);
    CountPair(Invalidate, Initialize, EndOfPage);
    CountPair(Invalidate, Initialize, FormFeed);
    CountPair(Invalidate, Initialize, PrintInfo(s.mediaType, s.width));
    CountPair(Invalidate, Initialize, CutEachCommand(s.cutEach));
  }

  // ---------------------------------------------------------------------
  // Jobs that print

  /** A page the job admits splits into lines that all encode. */
  lemma AdmittedPageSucceeds(rev: Revision, s: Settings, job: Job, i: nat)
    requires i < |job.pages| && Admits(job, job.pages[i])
    requires s.offset == job.mediaSize.value.Info().leftMargin
    ensures PageRun(rev, s, job, i).failure.None?
  {
    var m := job.mediaSize.value;
    var p := job.pages[i];
    MediaFillsHead(m);
    var lines := Lines(p).value;
    forall j | 0 <= j < |lines|
      ensures LineEncoder.EncodeLine(lines[j], s.offset.value).Some?
    {
      LineEncoder.TapeLineEncodes(m, lines[j]);
    }
  }

  /** Every page of a job built with `add_page` is sent without failure. */
  lemma ValidPagesSucceed(rev: Revision, s: Settings, job: Job)
    requires Valid(job)
    requires job.mediaSize.Some? && s.offset == job.mediaSize.value.Info().leftMargin
    ensures PagesRun(rev, s, job, 0).failure.None?
  {
    forall k | 0 <= k < |job.pages|
      ensures PageRun(rev, s, job, k).failure.None?
    {
      AdmittedPageSucceeds(rev, s, job, k);
    }
    PagesSucceed(rev, s, job, 0);
    PagesRunSucceeds(rev, s, job, 0);
  }

  /** When every page from `i` on is sent without failure, no page fails. */
  lemma {:induction false} PagesSucceed(rev: Revision, s: Settings, job: Job, i: nat)
    requires i <= |job.pages|
    requires forall k :: i <= k < |job.pages| ==> PageRun(rev, s, job, k).failure.None?
    ensures NoPageFails(rev, s, job, i)
    decreases |job.pages| - i
  {
    if i < |job.pages| {
      assert PageRun(rev, s, job, i).failure.None?;
      PagesSucceed(rev, s, job, i + 1);
    }
  }

  /** A job built with `add_page` prints to the end on a printer that passes
      its checks: every page is sent and the run ends with the eject. */
  lemma ValidJobPrints(rev: Revision, caps: PrinterModels.Capabilities, job: Job)
    requires Prepare(rev, caps, job).Ok? && Valid(job)
    ensures Print(rev, caps, job).failure.None?
    ensures Print(rev, caps, job).writes[|Print(rev, caps, job).writes| - 1] == Eject
  {
    ValidPagesSucceed(rev, Prepare(rev, caps, job).value, job);
    PrintCounts(rev, caps, job);
  }

  // ---------------------------------------------------------------------
  // The two revisions

  lemma {:induction false} PagesRunsAgree(s: Settings, job: Job, i: nat)
    requires i <= |job.pages| && job.autoCut
    ensures PagesRun(Package, s, job, i) == PagesRun(Legacy, s, job, i)
    decreases |job.pages| - i
  {
    if i < |job.pages| {
      PageRunsAgree(s, job, i);
      PagesRunsAgree(s, job, i + 1);
    }
  }

  /** With auto-cut on, both revisions send a page alike. */
  lemma PageRunsAgree(s: Settings, job: Job, i: nat)
    requires i < |job.pages| && job.autoCut
    ensures PageRun(Package, s, job, i) == PageRun(Legacy, s, job, i)
  {
    assert PageHeader(Package, s, job, i) == PageHeader(Legacy, s, job, i);
  }

  /** With auto-cut on and media the package revision accepts, both
      revisions send exactly the same writes and end the same way. */
  lemma RevisionsAgreeUnderAutoCut(caps: PrinterModels.Capabilities, job: Job)
    requires job.autoCut && !RejectedMedia(job)
    ensures Print(Package, caps, job) == Print(Legacy, caps, job)
  {
    if Prepare(Package, caps, job).Ok? {
      PagesRunsAgree(Prepare(Package, caps, job).value, job, 0);
    }
  }

  // ---------------------------------------------------------------------
  // The package revision as written

  /** The package revision as written, once its media lookup is repaired as
      in `Prepare`, never sends a raster line: for a job
      that passes its checks and whose first page has lines, it stops with a
      name error right after the first page's header, where the corrected
      engine sends the page and, for a job built with `add_page`, the whole
      job. */
  lemma AsWrittenStopsAtFirstLine(caps: PrinterModels.Capabilities, job: Job)
    requires Prepare(Package, caps, job).Ok?
    requires |job.pages| > 0 && job.pages[0].width > 0 && |job.pages[0].bitmap| > 0
    ensures PrintPackageAsWritten(caps, job).failure == Some(UndefinedName)
    ensures PrintPackageAsWritten(caps, job).writes ==
      ResetWrites + PageHeader(Package, Prepare(Package, caps, job).value, job, 0)
    ensures Valid(job) ==> Print(Package, caps, job).failure.None?
  {
    var lines := Lines(job.pages[0]).value;
    if Valid(job) {
      ValidJobPrints(Package, caps, job);
    }
  }

  // ---------------------------------------------------------------------
  // Status request

  /** Reading the status over a two-way connection resets the printer and
      sends `1B 69 53` first, in both revisions, and both then treat the
      reply alike. */
  lemma StatusRequestWrites(rev: Revision, reply: Option<seq<bv8>>)
    ensures GetStatus(rev, ReadWrite(reply)).writes == [Zeros(100), [0x1B, 0x40], [0x1B, 0x69, 0x53]]
    ensures GetStatus(rev, ReadWrite(reply)) == GetStatus(Legacy, ReadWrite(reply))
  {
  }

  /** An empty reply or none fails as no response, a reply of 1 to 31 bytes
      as invalid, and a backend that cannot read fails without writing. */
  lemma StatusReplyChecks(rev: Revision, data: seq<bv8>)
    ensures GetStatus(rev, ReadWrite(None)).result == Err(NoResponse)
    ensures |data| == 0 ==> GetStatus(rev, ReadWrite(Some(data))).result == Err(NoResponse)
    ensures 0 < |data| < 32 ==> GetStatus(rev, ReadWrite(Some(data))).result == Err(InvalidResponse)
    ensures GetStatus(rev, WriteOnly) == StatusRun([], Err(Unidirectional))
    ensures GetStatus(Legacy, SideChannel(Some(data))).result == Err(Unidirectional)
  {
  }

  /** A full reply is decoded, and only an unknown code can make the decode
      fail: a reply of 32 bytes is never too short for it. */
  lemma FullReplyDecodes(rev: Revision, data: seq<bv8>)
    requires |data| >= 32
    ensures GetStatus(rev, ReadWrite(Some(data))).result.Ok? <==> StatusPacket.KnownCodes(data)
    ensures GetStatus(rev, ReadWrite(Some(data))).result.Ok? ==>
      GetStatus(rev, ReadWrite(Some(data))).result.value == StatusPacket.Decode(data).value
    ensures GetStatus(rev, ReadWrite(Some(data))).result.Err? ==>
      GetStatus(rev, ReadWrite(Some(data))).result.error.Undecodable?
      && !GetStatus(rev, ReadWrite(Some(data))).result.error.cause.Truncated?
  {
    match StatusPacket.Decode(data)
    case Ok(_) =>
    case Err(e) =>
      assert !e.Truncated?;
  }

  /** The package revision reads a side channel's reply without writing. */
  lemma SideChannelStatus(data: seq<bv8>)
    requires |data| >= 32
    ensures GetStatus(Package, SideChannel(Some(data))).writes == []
    ensures GetStatus(Package, SideChannel(Some(data))).result == GetStatus(Package, ReadWrite(Some(data))).result
  {
  }
}

=== FILE: raster_lines.dfy ===
/** The raster-line writes of one page: one command per line, in line order,
    stopping at the first line that cannot be encoded. */
module RasterLines {
  import opened Results
  import LineEncoder

  /** The command that sends one encoded raster line. */
  function RasterLine(encoded: seq<bv8>): seq<bv8> {
    [0x47] + encoded
  }

  /** Why a line of a page cannot be sent. */
  datatype LineFailure =
    | MarginUndefined  // a line to shift by the margin of the no-media sentinel
    | LineOverflow     // a shifted line does not fit in 16 bytes

  /** The raster-line writes of a page and the failure that stopped them. */
  datatype LineRun = LineRun(writes: seq<seq<bv8>>, failure: Option<LineFailure>)

  /** The encoding of every line, each computed as `encode_line` does. */
  function Encodings(lines: seq<seq<bv8>>, padding: nat): (r: seq<Option<seq<bv8>>>)
    ensures |r| == |lines|
    ensures forall j :: 0 <= j < |lines| ==> r[j] == LineEncoder.EncodeLine(lines[j], padding)
  {
    seq(|lines|, j requires 0 <= j < |lines| => LineEncoder.EncodeLine(lines[j], padding))
  }

  /** Sends encoded lines in order until one is missing. */
  function Send(encodings: seq<Option<seq<bv8>>>): (r: LineRun)
    ensures |r.writes| <= |encodings|
    ensures r.failure.None? <==> forall j :: 0 <= j < |encodings| ==> encodings[j].Some?
    ensures r.failure.None? ==> |r.writes| == |encodings|
    ensures r.failure.Some? ==> |r.writes| < |encodings| && encodings[|r.writes|].None? && r.failure == Some(LineOverflow)
    ensures forall j :: 0 <= j < |r.writes| ==>
      encodings[j].Some? && r.writes[j] == RasterLine(encodings[j].value)
    decreases |encodings|
  {
    if encodings == [] then LineRun([], None)
    else if encodings[0].None? then LineRun([], Some(LineOverflow))
    else
      var rest := Send(encodings[1..]);
      var w := [RasterLine(encodings[0].value)] + rest.writes;
      assert forall j :: 1 <= j < |encodings| ==> encodings[j] == encodings[1..][j - 1];
      assert forall j :: 1 <= j < |w| ==> w[j] == rest.writes[j - 1];
      LineRun(w, rest.failure)
  }

  /** The line loop of a page shifted by `offset`. Without a margin the first
      line fails; a page without lines sends nothing and succeeds. */
  function LineWrites(lines: seq<seq<bv8>>, offset: Option<nat>): (r: LineRun)
    ensures r.failure.None? <==>
      lines == [] || (offset.Some? && forall j :: 0 <= j < |lines| ==> LineEncoder.EncodeLine(lines[j], offset.value).Some?)
    ensures |r.writes| <= |lines|
    ensures r.failure.None? ==> |r.writes| == |lines|
    ensures r.failure == Some(MarginUndefined) ==> offset.None? && lines != [] && r.writes == []
    ensures r.failure == Some(LineOverflow) ==>
      offset.Some? && |r.writes| < |lines| && LineEncoder.EncodeLine(lines[|r.writes|], offset.value).None?
    ensures forall j :: 0 <= j < |r.writes| ==>
      offset.Some? && LineEncoder.EncodeLine(lines[j], offset.value).Some?
      && r.writes[j] == RasterLine(LineEncoder.EncodeLine(lines[j], offset.value).value)
  {
    if lines == [] then LineRun([], None)
    else if offset.None? then LineRun([], Some(MarginUndefined))
    else Send(Encodings(lines, offset.value))
  }

  /** Every write of a page's line loop is a raster-line command, byte `47`
      first. */
  lemma WritesAreRasterLines(lines: seq<seq<bv8>>, offset: Option<nat>)
    ensures forall j :: 0 <= j < |LineWrites(lines, offset).writes| ==>
      |LineWrites(lines, offset).writes[j]| > 0 && LineWrites(lines, offset).writes[j][0] == 0x47
  {
    if lines != [] && offset.Some? {
      var e := Encodings(lines, offset.value);
      SendRasterLines(e);
    }
  }

  lemma SendRasterLines(encodings: seq<Option<seq<bv8>>>)
    ensures forall j :: 0 <= j < |Send(encodings).writes| ==>
      |Send(encodings).writes[j]| > 0 && Send(encodings).writes[j][0] == 0x47
  {
  }
}

=== FILE: results.dfy ===
/** Failure-compatible wrappers used throughout the model: an optional value and
    a value-or-error result. Both work with Dafny's `:-` operator, which plays the
    part of the exceptions the printer library raises. */
module Results {

  datatype Option<+T> = None | Some(value: T) {

    predicate IsFailure() {
      None?
    }

    function PropagateFailure<U>(): Option<U>
      requires None?
    {
      None
    }

    function Extract(): T
      requires Some?
    {
      value
    }

    /** Turns a missing value into the given error. */
    function ToResult<E>(error: E): Result<T, E>
    {
      match this
      case Some(v) => Ok(v)
      case None => Err(error)
    }
  }

  datatype Result<+T, +E> = Ok(value: T) | Err(error: E) {

    predicate IsFailure() {
      Err?
    }

    function PropagateFailure<U>(): Result<U, E>
      requires Err?
    {
      Err(error)
    }

    function Extract(): T
      requires Ok?
    {
      value
    }

    /** Replaces the error value, keeping a success as it is. */
    function MapError<F>(f: E -> F): Result<T, F>
    {
      match this
      case Ok(v) => Ok(v)
      case Err(e) => Err(f(e))
    }
  }
}

=== FILE: status.dfy ===
/** Decoding of the printer's status reply. The decoder reads fixed offsets of
    the packet; every coded field must carry a value its table knows, or the
    whole decode fails. Fields are read in the order `Status` reads them, so a short
    packet fails at the first offset it lacks. */
module StatusPacket {
  import opened Results
  import opened CodeTables
  import ErrorFlags
  import Constants

  /** Offsets of the decoded fields. */
  const ModelOffset: nat := 4
  const ErrorOffset: nat := 8
  const MediaWidthOffset: nat := 10
  const MediaTypeOffset: nat := 11
  const StatusOffset: nat := 18
  const NotificationOffset: nat := 22
  const TapeColorOffset: nat := 24
  const TextColorOffset: nat := 25

  /** Why a packet could not be decoded: it ends before a field it needs, or
      a coded field holds a value its table lacks. */
  datatype DecodeError =
    | Truncated(offset: nat)
    | UnknownMediaType(code: bv8)
    | UnknownStatus(code: bv8)
    | UnknownNotification(code: bv8)
    | UnknownTapeColor(code: bv8)
    | UnknownTextColor(code: bv8)

  datatype Status = Status(
    model: bv8,
    errors: ErrorFlags.Errors,
    mediaWidth: nat,
    mediaType: MediaType,
    status: StatusCode,
    notification: NotificationCode,
    tapeColor: TapeColor,
    textColor: TextColor)
  {
    /** The printer can take a job: it reports no error. */
    predicate Ready() {
      !errors.Any()
    }
  }

  function Field(data: seq<bv8>, offset: nat): (r: Result<bv8, DecodeError>)
    ensures r.Ok? <==> offset < |data|
    ensures r.Ok? ==> r.value == data[offset]
  {
    if offset < |data| then Ok(data[offset]) else Err(Truncated(offset))
  }

  /** All coded fields of a packet of at least 26 bytes are known values. */
  predicate KnownCodes(data: seq<bv8>)
    requires |data| > TextColorOffset
  {
    && MediaType.FromByte(data[MediaTypeOffset]).Some?
    && StatusCode.FromByte(data[StatusOffset]).Some?
    && NotificationCode.FromByte(data[NotificationOffset]).Some?
    && TapeColor.FromByte(data[TapeColorOffset]).Some?
    && TextColor.FromByte(data[TextColorOffset]).Some?
  }

  function Decode(data: seq<bv8>): (r: Result<Status, DecodeError>)
    ensures r.Ok? <==> |data| > TextColorOffset && KnownCodes(data)
    ensures r.Ok? ==>
      && r.value.model == data[ModelOffset]
      && r.value.errors == ErrorFlags.Decode(data[ErrorOffset], data[ErrorOffset + 1])
      && r.value.mediaWidth == data[MediaWidthOffset] as nat
      && r.value.mediaType.Value() == data[MediaTypeOffset]
      && r.value.status.Value() == data[StatusOffset]
      && r.value.notification.Value() == data[NotificationOffset]
      && r.value.tapeColor.Value() == data[TapeColorOffset]
      && r.value.textColor.Value() == data[TextColorOffset]
  {
    var model :- Field(data, ModelOffset);
    var errorLow :- Field(data, ErrorOffset);
    var errorHigh :- Field(data, ErrorOffset + 1);
    var width :- Field(data, MediaWidthOffset);
    var typeCode :- Field(data, MediaTypeOffset);
    var mediaType :- MediaType.FromByte(typeCode).ToResult(UnknownMediaType(typeCode));
    var statusCode :- Field(data, StatusOffset);
    var status :- StatusCode.FromByte(statusCode).ToResult(UnknownStatus(statusCode));
    var notificationCode :- Field(data, NotificationOffset);
    var notification :- NotificationCode.FromByte(notificationCode).ToResult(UnknownNotification(notificationCode));
    var tapeCode :- Field(data, TapeColorOffset);
    var tapeColor :- TapeColor.FromByte(tapeCode).ToResult(UnknownTapeColor(tapeCode));
    var textCode :- Field(data, TextColorOffset);
    var textColor :- TextColor.FromByte(textCode).ToResult(UnknownTextColor(textCode));
    Ok(Status(model, ErrorFlags.Decode(errorLow, errorHigh), width as nat,
              mediaType, status, notification, tapeColor, textColor))
  }

  /** The decoded record is a function of the nine field bytes alone: two
      packets that agree on them decode alike, whatever the other bytes hold. */
  lemma DependsOnlyOnFields(a: seq<bv8>, b: seq<bv8>)
    requires |a| > TextColorOffset && |b| > TextColorOffset
    requires a[ModelOffset] == b[ModelOffset]
    requires a[ErrorOffset] == b[ErrorOffset] && a[ErrorOffset + 1] == b[ErrorOffset + 1]
    requires a[MediaWidthOffset] == b[MediaWidthOffset]
    requires a[MediaTypeOffset] == b[MediaTypeOffset]
    requires a[StatusOffset] == b[StatusOffset]
    requires a[NotificationOffset] == b[NotificationOffset]
    requires a[TapeColorOffset] == b[TapeColorOffset]
    requires a[TextColorOffset] == b[TextColorOffset]
    ensures Decode(a) == Decode(b)
  {
  }

  /** An unknown media-type byte is reported as such, whatever follows it. */
  lemma UnknownMediaTypeFails(data: seq<bv8>)
    requires |data| > MediaTypeOffset
    requires MediaType.FromByte(data[MediaTypeOffset]).None?
    ensures Decode(data) == Err(UnknownMediaType(data[MediaTypeOffset]))
  {
  }

  /** Ready read straight off the reply: no error bit in bytes 8 and 9. */
  lemma ReadyFromBytes(data: seq<bv8>)
    requires Decode(data).Ok?
    ensures Decode(data).value.Ready() <==>
      data[ErrorOffset] & 0x4D == 0 && data[ErrorOffset + 1] & 0x31 == 0
  {
    ErrorFlags.AnyFromBytes(data[ErrorOffset], data[ErrorOffset + 1]);
  }

  /** A reply whose error bytes are 01 00 reports only the missing-media error
      and is not ready. */
  lemma NoMediaReplyNotReady(data: seq<bv8>)
    requires Decode(data).Ok?
    requires data[ErrorOffset] == 0x01 && data[ErrorOffset + 1] == 0x00
    ensures Decode(data).value.errors.flags == {Constants.NoMediaError}
    ensures !Decode(data).value.Ready()
  {
    ErrorFlags.NoMediaExample();
  }
}

=== FILE: write_counts.dfy ===
/** Counting the writes of a run: how many of them are one given command. */
module WriteCounts {

  /** How many writes of `ws` are exactly `w`. */
  function Count(ws: seq<seq<bv8>>, w: seq<bv8>): nat
    decreases |ws|
  {
    if ws == [] then 0 else (if ws[0] == w then 1 else 0) + Count(ws[1..], w)
  }

  /** Counting splits over concatenation. */
  lemma {:induction false} CountSplit(all: seq<seq<bv8>>, a: seq<seq<bv8>>, b: seq<seq<bv8>>, w: seq<bv8>)
    requires all == a + b
    ensures Count(all, w) == Count(a, w) + Count(b, w)
    decreases |a|
  {
    if a == [] {
      assert all == b;
    } else {
      assert all[0] == a[0];
      assert all[1..] == a[1..] + b;
      CountSplit(all[1..], a[1..], b, w);
    }
  }

  /** A write that does not occur is counted zero times. */
  lemma {:induction false} CountAbsent(ws: seq<seq<bv8>>, w: seq<bv8>)
    requires w !in ws
    ensures Count(ws, w) == 0
    decreases |ws|
  {
    if ws != [] {
      assert ws[0] in ws;
      assert forall x :: x in ws[1..] ==> x in ws;
      CountAbsent(ws[1..], w);
    }
  }

  lemma CountSingle(x: seq<bv8>, w: seq<bv8>)
    ensures Count([x], w) == if x == w then 1 else 0
  {
    assert [x][1..] == [];
  }

  lemma CountPair(x: seq<bv8>, y: seq<bv8>, w: seq<bv8>)
    ensures Count([x, y], w) == (if x == w then 1 else 0) + (if y == w then 1 else 0)
  {
    CountSplit([x, y], [x], [y], w);
    CountSingle(x, w);
    CountSingle(y, w);
  }

  lemma CountOptional(b: bool, x: seq<bv8>, w: seq<bv8>)
    ensures Count(if b then [x] else [], w) == if b && x == w then 1 else 0
  {
    CountSingle(x, w);
  }
}
